=== FILE: README.md ===
# ops-ledd LED reconciliation engine in Dafny

This project models the core of `ops-ledd`, the OpenSwitch LED daemon. The
daemon keeps front-panel LEDs in step with the LED table of the switch
database. Each reconciliation cycle (`ledd_reconfigure`) does the following:

- It returns at once when the replica's sequence number has not moved.
- It clears the mark of every subsystem it knows.
- It walks the Subsystem table:
  - A subsystem it has never seen is onboarded (`add_subsystem`). The
    hardware description is loaded, and the recognised LED types (only
    `loc`) form the subsystem's type catalog. Every described LED is created
    OFF, written once to its register, and published as a LED row named
    `<subsystem>-<led>`.
  - A known subsystem goes through the update path
    (`process_changes_in_subsys`). Every LED is compared with the LED rows of
    the same id. A changed desired state is cached and written, and the
    resulting status is staged when it differs from the row's status.
- The first time a Daemon row named `ops-ledd...` is present, it sets that
  row's `cur_hw` to 1.
- It commits the transaction only when something was staged.
- It sweeps every subsystem left unmarked.

The project also models the CLI side
(`vtysh_config_context_led_clientcallback`). That callback prints
`led <id> <state>` for every LED row whose state is not `off`, ignoring case.

Modules, one per concern, in dependency order:

| file | module | content |
|---|---|---|
| wrappers.dfy | Wrappers | `Option` |
| led_model.dfy | LedModel | enums, string tables, descriptor records, `Led`, `Subsystem` (include/ledd.h) |
| conversions.dfy | Conversions | state/status string and enum conversions |
| store.dfy | Store | the database replica: Subsystem, LED and Daemon rows, the sequence number, `lookup_led` |
| led_write.dfy | LedWrite | type lookup and `ledd_write_led` |
| update.dfy | Update | `process_changes_in_subsys` |
| onboard.dfy | Onboard | `add_subsystem` |
| registry.dfy | Registry | unmark and sweep |
| driver.dfy | Driver | `ledd_reconfigure` |
| led_context.dfy | LedContext | the CLI running-configuration callback |

Modelling choices:

- **Hardware.** The register write primitive is an oracle
  `(writes so far, new write) -> return code`. A write succeeds iff the code
  is 0, and every operation threads the log of the writes it issued.
- **Hardware description library.** It is a provider function from
  (subsystem name, directory) to a `Descriptor`, which records:
  - whether loading, device parsing and LED parsing succeeded;
  - the LED information block;
  - the parsed types, where an unreadable entry is `None`;
  - the parsed LEDs.
- **Transactions.** A transaction is a working copy of the database. Rows it
  inserts are visible to later lookups in the same cycle, as in the OVS IDL.
  The commit replaces the database by the working copy iff something was
  staged.
- **Hash tables.** A subsystem's LED hash becomes a sequence, and its type
  hash becomes a map keyed by type name. Iteration order is taken as
  insertion order; see "Left out".

Behaviour of the code worth noting:

- The update path computes the new LED status in a local variable and
  stages it in the row. It never stores it in the cached `led->status`
  (src/ledd.c:579-605). `Update.SyncRow` keeps the cached status unchanged
  (`SameLedButState`).
- Two kinds of subsystem are never marked in the cycle, so the same cycle
  sweeps them: one whose onboarding failed, and one left in IGNORE, because
  `process_changes_in_subsys` returns before marking
  (src/ledd.c:561-564 and 927). They are not kept in quarantine. The next
  cycle that sees a new sequence number onboards them again.
  `Driver.CycleSurvivorsReported` and `Driver.CycleRegistryExact` state
  this.
- `process_changes_in_subsys` marks a subsystem inside its per-LED loop
  (src/ledd.c:608). A subsystem in OK with no LEDs is therefore never marked
  by the update path. The model keeps this.

## Model

| member | source | states |
|---|---|---|
| LedModel.RecognisedTypesAreLoc | include/ledd.h:115-128 | the table of recognised LED type names holds exactly the name "loc" |
| LedModel.TablesFollowEnumOrder | include/ledd.h:134-148 | the state table lists flashing, off, on and the status table lists fault, ok, uninitialized, each at the position of its enum code |
| Conversions.StateToEnum | src/ledd.c:275-292 | a missing or unknown state string reads as OFF; a known string reads as the state whose code is its position in the state table |
| Conversions.StatusToEnum | src/ledd.c:256-273 | a missing or unknown status string reads as UNINITIALIZED; a known one reads as the status at its table position |
| Conversions.StateToString | src/ledd.c:294-303 | an in-range code gives the table string at that position, an out-of-range code gives "off"; the result is always a state string |
| Conversions.StatusToString | src/ledd.c:305-313 | an in-range code gives its status string, an out-of-range code gives "uninitialized" |
| Conversions.StateRoundTrip | src/ledd.c:275-303 | reading back the string of a state gives the same state |
| Conversions.StateStringRoundTrip | src/ledd.c:275-303 | a state string survives conversion to a state and back unchanged |
| Conversions.StatusRoundTrip | src/ledd.c:256-313 | reading back the string of a status gives the same status |
| Conversions.StatusStringRoundTrip | src/ledd.c:256-313 | a status string survives conversion to a status and back unchanged |
| Conversions.StateStringsAre | include/ledd.h:134-138 | a string is a state string iff it is "flashing", "off" or "on" |
| Store.LookupLed | src/ledd.c:526-538 | finds the first LED row whose id equals the name, or reports that no row has it |
| LedWrite.TypeStringToEnum | src/ledd.c:82-90 | a type name has the loc behaviour iff it is "loc", that is iff it is a recognised type |
| LedWrite.GetLedType | src/ledd.c:92-108 | in a well-formed catalog the lookup finds an entry of that type name exactly when one is catalogued |
| LedWrite.WriteLed | src/ledd.c:176-247 | without a catalogued loc type nothing is written and the write fails; otherwise exactly one write of the state's register value goes to the LED's access descriptor, and it succeeds iff the primitive returns 0 |
| LedWrite.WritableIffCatalogued | src/ledd.c:189-236 | for a catalog built from recognised types, a LED can be written exactly when its type is found |
| LedWrite.SuccessiveWritesAreSeparate | src/ledd.c:214-241 | two writes for two states are two separate log entries, each carrying its own state's value |
| Update.SyncRow | src/ledd.c:570-606 | a row with another id, or one whose desired state equals the cached state, changes nothing; otherwise the cached state follows the row, and exactly one write, of the new state's register value to the LED's access descriptor, is issued iff the LED's type is a catalogued loc type; the status is staged and the change flag set iff the resulting status differs from the row's status |
| Update.SyncRows | src/ledd.c:571-607 | matching one LED against the LED table keeps every row id and state, never shortens the write log, and changes no row unless the change flag is set |
| Update.SyncLeds | src/ledd.c:567-609 | reconciling all LEDs changes only their cached states, keeps every row id and state, and changes no row unless the change flag is set |
| Update.ProcessChanges | src/ledd.c:553-611 | an IGNORE subsystem is returned untouched with nothing written or staged; otherwise only cached LED states change, and the subsystem is marked iff it was marked or has at least one LED |
| Update.SyncedRowsAreFixed | src/ledd.c:577-582 | a LED that already agrees with every row of its id causes no write, no change and no staging |
| Update.SyncRowsSyncs | src/ledd.c:571-607 | with unique row ids, after matching a LED against the table its cached state agrees with its row |
| Update.SyncLedsSyncs | src/ledd.c:567-609 | with unique row ids, after the update path every LED agrees with its row |
| Update.AllSyncedAreFixed | src/ledd.c:567-609 | when every LED already agrees with its row, the update path writes nothing, stages nothing and changes nothing |
| Update.ProcessChangesIdempotent | src/ledd.c:553-611 | running the update path again on what it left issues no write, stages nothing and leaves the subsystem as it is, whatever the hardware answers |
| Update.SyncRowsWrites | src/ledd.c:571-607 | with unique row ids, matching a LED against the table writes it once iff a row of its id asks for another state and its type is writable; the write carries the new state's value to its access descriptor; rows of other ids are untouched and its own row ends holding the status the write earned |
| Update.SyncLedsWrites | src/ledd.c:567-609 | with unique row ids, the outer loop issues one write per LED that needs one, in LED order, each with the value of that LED's new state, and no other write |
| Update.ProcessChangesSyncs | src/ledd.c:553-611 | with unique row ids, after the update path of an OK subsystem every LED caches the state its row asks for |
| Update.ProcessChangesWrites | src/ledd.c:553-611 | with unique row ids, the update path of an OK subsystem issues exactly the writes of the changed, writable LEDs, in LED order, with their new states' values |
| Update.SyncRowsKeepsOthers | src/ledd.c:571-575 | matching a LED against the table leaves every row of another id untouched |
| Update.SyncLedsKeepsOthers | src/ledd.c:567-609 | the outer loop leaves every row whose id no LED of the subsystem carries untouched |
| Update.SyncRowDirty | src/ledd.c:600-604 | one LED-row step sets the change flag iff it changes the row, since a staged status always differs from the row's old one |
| Update.SyncRowsDirty | src/ledd.c:571-607 | matching a LED against the table sets the change flag iff some row changed |
| Update.SyncLedsDirty | src/ledd.c:567-609 | with distinct LED names, the outer loop sets the change flag iff the LED table changed |
| Update.SyncLedsStatuses | src/ledd.c:567-609 | with unique row ids and distinct LED names, the row of every LED whose row asked for another state ends holding the status that LED earned: OK iff its type is writable and the primitive accepted its own write, FAULT otherwise |
| Update.ProcessChangesStatuses | src/ledd.c:553-611 | with unique row ids and distinct LED names, the update path of an OK subsystem leaves each changed LED's row holding its earned status and leaves every row no LED of the subsystem names untouched |
| Update.ProcessChangesDirty | src/ledd.c:553-611 | with distinct LED names, the update path reports a change to commit iff it changed the LED table |
| Onboard.NewSubsystem | src/ledd.c:646-658 | a new subsystem record is unmarked, IGNORE, with no LEDs and no types |
| Onboard.LedName | src/ledd.c:791 | a LED's display name is the subsystem name, a dash, and the descriptor LED name |
| Onboard.BuildCatalog | src/ledd.c:745-775 | the catalog holds every readable parsed type with a recognised name, and nothing else; each entry is the last parsed entry of that name |
| Onboard.OnboardLed | src/ledd.c:778-837 | the LED is created OFF with its name and descriptor, and has settings iff its type is catalogued; a row with state "off" is inserted iff no row has its id; at most one write is issued; the LED status is OK iff the write succeeded, and the row's status is set to it |
| Onboard.PublishLeds | src/ledd.c:777-837 | publishing the LEDs yields one LED and one row reference per descriptor LED, only adds rows, and keeps LED row ids unique, since a row is added only for a LED whose id no row has |
| Onboard.PublishedLeds | src/ledd.c:787-808 | each published LED carries its display name, subsystem, descriptor and state OFF, has settings iff its type is catalogued, and is OK only if writable |
| Onboard.PublishedRefs | src/ledd.c:810-836 | each published LED's row reference points at a row carrying the LED's name |
| Onboard.PublishedWrites | src/ledd.c:826-832 | onboarding issues exactly one write per writable LED, each addressed to this subsystem |
| Onboard.PublishedStatuses | src/ledd.c:778-837 | each writable LED's write sits at its position in LED order and carries its type's OFF value to its access descriptor; each LED ends OK iff it is writable and the primitive accepted its own write |
| Onboard.PublishedRowStatuses | src/ledd.c:810-836 | when the descriptor names its LEDs distinctly, every published LED's row ends holding that LED's status |
| Onboard.PublishKeepsOtherRows | src/ledd.c:810-836 | an existing LED row that no onboarded LED names is left untouched |
| Onboard.OnboardLedKeepsUniqueIds | src/ledd.c:809-820 | onboarding one LED inserts a row only when no row has its id, so LED row ids stay unique |
| Onboard.AddSubsystemKeepsUniqueIds | src/ledd.c:632-850 | onboarding a subsystem keeps LED row ids unique |
| Onboard.AddSubsystem | src/ledd.c:632-850 | the subsystem ends OK, ends marked, and stages a change, each iff the directory is set and the description loads with at least one type and one LED; on every early return nothing is written or staged and the record stays empty; only the onboarded row's LED list changes, new LED rows are added, and existing LED rows change at most in their status |
| Onboard.OnboardedShape | src/ledd.c:703-847 | on success the record carries the parsed counts, one LED per parsed LED (named and OFF), every recognised parsed type, one row reference per LED naming that LED's row, and one write per writable LED |
| Onboard.DeclaredCountsIgnored | src/ledd.c:707-740 | the counts the LED information declares do not change the outcome; only the parsed counts matter |
| Registry.Unmark | src/ledd.c:457-467 | every subsystem stays in the registry with its mark cleared and nothing else changed |
| Registry.Sweep | src/ledd.c:117-161 | exactly the marked subsystems remain, unchanged |
| Registry.SweepAfterUnmarkEmpties | src/ledd.c:117-161 | a sweep directly after unmarking leaves an empty registry |
| Registry.SweepIdempotent | src/ledd.c:117-161 | sweeping twice is the same as sweeping once |
| Driver.FindDaemon | src/ledd.c:907-918 | finds the first Daemon row whose name begins with "ops-ledd", or reports that none does |
| Driver.VisitRow | src/ledd.c:892-902 | visiting one Subsystem row files one registry entry under the row's name and leaves every other entry alone; it changes only rows' LED lists and the LED table, and stages nothing unless it reports a change |
| Driver.VisitRowUpdatesKnown | src/ledd.c:899-902 | with unique LED row ids, visiting a known OK subsystem runs its update path: only the LED table changes, every LED then caches the state its row asks for, and the writes are exactly those of the LEDs whose rows asked for another state and whose type is writable, in LED order |
| Driver.VisitRowStatusesKnown | src/ledd.c:899-902 | with distinct LED names as well, each changed LED's row ends holding its earned status, rows no LED names are untouched, and a change is staged iff the database changed |
| Driver.VisitRowSkipsIgnored | src/ledd.c:899-902 | visiting a known IGNORE subsystem changes, writes and stages nothing |
| Driver.VisitRowOnboardsNew | src/ledd.c:896-898 | visiting a new subsystem whose onboarding succeeds files a marked OK record with one LED per parsed LED, stages the change, points the row's LED list at one row per LED carrying its name, and writes once per writable LED |
| Driver.VisitRowKeepsUniqueIds | src/ledd.c:892-902 | visiting a row, on either path, keeps LED row ids unique |
| Driver.VisitKeepsUniqueIds | src/ledd.c:890-903 | the walk keeps LED row ids unique, so each update it runs meets the update lemmas' precondition |
| Driver.CycleKeepsUniqueIds | src/ledd.c:870-929 | a cycle keeps LED row ids unique |
| Driver.VisitSubsystems | src/ledd.c:888-903 | walking the Subsystem table only changes rows' LED lists and the LED table, leaves the Daemon table alone, stages nothing unless the change flag is set, and only adds registry entries for visited names |
| Driver.Reconfigure | src/ledd.c:870-929 | an unchanged sequence number does nothing; otherwise the new sequence number is recorded, the ready flag is set once and thereafter the Daemon table is left alone, the flag becomes set iff a Daemon row of this daemon exists, the first such row's `cur_hw` is committed as 1 and no other Daemon row changes, and every surviving subsystem is marked |
| Driver.VisitMarksOnlyVisited | src/ledd.c:884-903 | after the walk every marked registry entry is a visited subsystem that is OK, has LEDs and has a well-formed catalog |
| Driver.CycleSurvivorsReported | src/ledd.c:884-928 | after a cycle every surviving subsystem was reported by the database in that cycle, and the registry stays well formed |
| Driver.VisitKeepsKnown | src/ledd.c:890-903 | a usable known subsystem stays in the registry and is marked once its row has been visited |
| Driver.VisitTracksNew | src/ledd.c:890-903 | a subsystem seen for the first time is in the registry and marked after the walk iff its onboarding succeeded |
| Driver.CycleRegistryExact | src/ledd.c:870-929 | after a cycle the registry holds exactly the reported subsystems that were known before or whose onboarding succeeded |
| Driver.CommitKeepsStaged | src/ledd.c:920-924 | the committed database holds every LED row and Subsystem row change the walk staged |
| LedContext.EmittedRowsExact | src/cli/vtysh_ovsdb_led_context.c:50-62 | the emitted positions are increasing and in range, and hold exactly the rows whose state is not "off" in any case |
| LedContext.LedClientCallback | src/cli/vtysh_ovsdb_led_context.c:44-65 | emits `led <id> <state>` for exactly those rows, in table order, and returns success |
| LedContext.DefaultStateSpelling | src/cli/vtysh_ovsdb_led_context.c:34-56 | a state is the default iff it spells "off" in any letter case |
| LedContext.EmitsAgreesWithDaemon | src/cli/vtysh_ovsdb_led_context.c:54-60 | for the schema's state strings, a row is emitted iff the daemon reads its state as other than OFF |

## Left out

- Process scaffolding: `main`, option parsing, daemonisation, `ledd_init`,
  `ledd_run`, `ledd_wait` and `ledd_exit`. They are I/O and event-loop glue.
  The model starts where a cycle starts.
- The `ledd/dump` unixctl command (`ledd_unixctl_dump`). It only formats
  state for display.
- The register write (`i2c_reg_write`). It is a foreign call into the i2c
  library and is modelled as an oracle on the write history.
- The hardware description library (`yaml_add_subsystem`, the parsers, the
  getters). It is a foreign library and is modelled as a provider function.
  Its per-subsystem data is never freed on sweep, and the model does not
  track it.
- Transaction mechanics: `ovsdb_idl_txn_create`, `commit_block`, `destroy`,
  and a commit that fails. A commit is modelled as always applying the
  working copy. The next cycle's sequence number comes from the environment.
- Logging, event logging and the coverage counter. These are observable
  only in logs.
- Memory allocation and freeing, and the `parent_subsystem` pointer, which
  is always NULL.
- Hash iteration order. The source walks a subsystem's LED hash in hash
  order (src/ledd.c:567), and the model walks the LEDs in parsed order. When
  several LEDs of one subsystem change state in the same cycle, the model
  issues their register writes in a different order from the source. The
  write primitive sees the write history, so their outcomes can differ too.
  The write-order lemmas (`Update.SyncLedsWrites`,
  `Update.ProcessChangesWrites`) state the order for parsed order only. For
  types, hash order only matters when a description names two types alike;
  the model's catalog then keeps the last parsed entry of the name.
- Branches the source guards but that cannot be taken:
  - `settings == NULL` in `ledd_write_led` (it is the address of a field);
  - a NULL type name;
  - a state outside the three enum values, since state values only come
    from `ledd_state_to_enum`.
- `ledd_write_led` casts `uint32_t` settings; register values are modelled
  as `Value`, integers in [0, 2^32).
- Update.ProcessChangesIdempotent: requires unique LED row ids. The schema
  makes `id` a key of the LED table; with duplicate ids the update path
  compares a LED with each duplicate row in turn and need not settle.
- Update.SyncRowsWrites: requires unique LED row ids, for the same reason.
- Update.SyncLedsWrites: requires unique LED row ids, for the same reason.
- Update.ProcessChangesSyncs: requires unique LED row ids, for the same reason.
- Update.ProcessChangesWrites: requires unique LED row ids, for the same reason.
- Update.SyncLedsStatuses: requires unique LED row ids and distinct LED
  names. With two LEDs of one name, the later one may stage its own status
  over the earlier one's.
- Update.ProcessChangesStatuses: requires unique LED row ids and distinct
  LED names, for the same reason.
- Update.SyncLedsDirty: requires distinct LED names. With two LEDs of one
  name, the later one may stage the row's old status back, so the change
  flag is set although the table ends unchanged.
- Update.ProcessChangesDirty: requires distinct LED names, for the same
  reason.
- Driver.VisitRowUpdatesKnown: requires unique LED row ids, as the update
  lemmas do; Driver.VisitKeepsUniqueIds shows the walk keeps them.
- Driver.VisitRowStatusesKnown: requires unique LED row ids and distinct
  LED names, as the update lemmas do.
- Onboard.PublishedRowStatuses: requires distinct descriptor LED names. With
  two LEDs of one name, both share one row, and the later write's status
  replaces the earlier one.
- Driver.CycleRegistryExact: requires unique Subsystem names. The schema
  makes `name` a key of the Subsystem table.
- LedContext.LedClientCallback: requires every LED row to have a state. The
  callback passes the state to `strcasecmp` without a NULL check, so a
  missing state is outside what it handles.

=== FILE: conversions.dfy ===
/**
 * Conversions between the LED state and status enumerations and the
 * strings stored in the LED table (src/ledd.c). Both directions are total:
 * a missing or unknown string maps to a default enum value and an
 * out-of-range enum value prints as the default string.
 */
module Conversions {
  import opened Wrappers
  import opened LedModel

  /** The first index at which `table` holds `s`, found by a front-to-back scan. */
  function IndexOf(table: seq<string>, s: string): (r: Option<nat>)
    ensures r.Some? ==> r.value < |table| && table[r.value] == s
    ensures r.Some? ==> forall j :: 0 <= j < r.value ==> table[j] != s
    ensures r.None? <==> forall j :: 0 <= j < |table| ==> table[j] != s
  {
    if |table| == 0 then None
    else if table[0] == s then Some(0)
    else
      match IndexOf(table[1..], s)
      case None => None
      case Some(i) => Some(i + 1)
  }

  /** True iff `s` is one of the schema's state strings. */
  predicate IsStateString(s: string) {
    IndexOf(StateStrings, s).Some?
  }

  /** True iff `s` is one of the schema's status strings. */
  predicate IsStatusString(s: string) {
    IndexOf(StatusStrings, s).Some?
  }

  /** The state whose enum code is `code`. */
  function StateFromCode(code: nat): (r: LedState)
    requires code < |StateStrings|
    ensures r.Code() == code
  {
    if code == 0 then Flashing else if code == 1 then Off else On
  }

  /** The status whose enum code is `code`. */
  function StatusFromCode(code: nat): (r: LedStatus)
    requires code < |StatusStrings|
    ensures r.Code() == code
  {
    if code == 0 then Fault else if code == 1 then Ok else Uninitialized
  }

  /** Parses a state column value; a missing or unknown string reads as Off. */
  function StateToEnum(s: Option<string>): (r: LedState)
    ensures s.None? ==> r == Off
    ensures s.Some? && !IsStateString(s.value) ==> r == Off
    ensures s.Some? && IsStateString(s.value) ==> StateStrings[r.Code()] == s.value
  {
    match s
    case None => Off
    case Some(str) =>
      match IndexOf(StateStrings, str)
      case None => Off
      case Some(i) => StateFromCode(i)
  }

  /** Parses a status column value; a missing or unknown string reads as Uninitialized. */
  function StatusToEnum(s: Option<string>): (r: LedStatus)
    ensures s.None? ==> r == Uninitialized
    ensures s.Some? && !IsStatusString(s.value) ==> r == Uninitialized
    ensures s.Some? && IsStatusString(s.value) ==> StatusStrings[r.Code()] == s.value
  {
    match s
    case None => Uninitialized
    case Some(str) =>
      match IndexOf(StatusStrings, str)
      case None => Uninitialized
      case Some(i) => StatusFromCode(i)
  }

  /**
   * Prints a raw state enum value. The source compares the value, cast to
   * unsigned, with the table size, so negative values are out of range too.
   */
  function StateToString(code: int): (r: string)
    ensures IsStateString(r)
    ensures 0 <= code < |StateStrings| ==> r == StateStrings[code]
    ensures !(0 <= code < |StateStrings|) ==> r == "off"
  {
    if 0 <= code < |StateStrings| then StateStrings[code] else StateStrings[Off.Code()]
  }

  /** Prints a raw status enum value; out-of-range values print as "uninitialized". */
  function StatusToString(code: int): (r: string)
    ensures IsStatusString(r)
    ensures 0 <= code < |StatusStrings| ==> r == StatusStrings[code]
    ensures !(0 <= code < |StatusStrings|) ==> r == "uninitialized"
  {
    if 0 <= code < |StatusStrings| then StatusStrings[code] else StatusStrings[Uninitialized.Code()]
  }

  /** Printing a state and parsing it back gives the state. */
  lemma StateRoundTrip(s: LedState)
    ensures StateToEnum(Some(StateToString(s.Code()))) == s
  {
  }

  /** Parsing a schema state string and printing it back gives the string. */
  lemma StateStringRoundTrip(str: string)
    requires IsStateString(str)
    ensures StateToString(StateToEnum(Some(str)).Code()) == str
  {
  }

  /** Printing a status and parsing it back gives the status. */
  lemma StatusRoundTrip(s: LedStatus)
    ensures StatusToEnum(Some(StatusToString(s.Code()))) == s
  {
  }

  /** Parsing a schema status string and printing it back gives the string. */
  lemma StatusStringRoundTrip(str: string)
    requires IsStatusString(str)
    ensures StatusToString(StatusToEnum(Some(str)).Code()) == str
  {
  }

  /** The state strings are exactly "flashing", "off" and "on". */
  lemma StateStringsAre(str: string)
    ensures IsStateString(str) <==> str == "flashing" || str == "off" || str == "on"
  {
  }
}

=== FILE: driver.dfy ===
/**
 * One reconciliation cycle (ledd_reconfigure in src/ledd.c). When the
 * replica's sequence number has moved, the cycle unmarks every subsystem,
 * onboards each reported subsystem it does not know and updates each one it
 * knows, flags the daemon's hardware as ready the first time it can,
 * commits the staged changes if there are any, and sweeps the subsystems
 * left unmarked.
 */
module Driver {
  import opened Wrappers
  import opened LedModel
  import opened Store
  import opened LedWrite
  import opened Update
  import opened Onboard
  import opened Registry

  /** The daemon's own name in the Daemon table. */
  const DaemonName: string := "ops-ledd"

  /**
   * The daemon's state across cycles: the registry, the sequence number of
   * the last processed change, and whether the hardware-ready flag was set.
   */
  datatype Engine = Engine(registry: Reg, seqno: nat, curHwSet: bool)

  /** The state threaded through the visit of the Subsystem table. */
  datatype Visit = Visit(registry: Reg, db: Database, log: seq<Write>, dirty: bool)

  /** The outcome of a cycle: the new engine state, the database after commit, the writes. */
  datatype Cycle = Cycle(engine: Engine, db: Database, log: seq<Write>)

  /** The names of the Subsystem rows, in table order. */
  ghost function NamesOf(rows: seq<SubsysRow>): (r: seq<string>)
    ensures |r| == |rows| && forall j :: 0 <= j < |rows| ==> r[j] == rows[j].name
  {
    seq(|rows|, j requires 0 <= j < |rows| => rows[j].name)
  }

  /** True iff `name` starts with the daemon's name (the source compares that many characters). */
  predicate IsDaemonRow(name: string) {
    |DaemonName| <= |name| && name[..|DaemonName|] == DaemonName
  }

  /** The position of the first Daemon row that is this daemon's, if any. */
  function FindDaemon(daemons: seq<DaemonRow>): (r: Option<nat>)
    ensures r.Some? ==> r.value < |daemons| && IsDaemonRow(daemons[r.value].name)
    ensures r.Some? ==> forall j :: 0 <= j < r.value ==> !IsDaemonRow(daemons[j].name)
    ensures r.None? <==> forall j :: 0 <= j < |daemons| ==> !IsDaemonRow(daemons[j].name)
  {
    if |daemons| == 0 then None
    else if IsDaemonRow(daemons[0].name) then Some(0)
    else
      match FindDaemon(daemons[1..])
      case None => None
      case Some(j) => Some(j + 1)
  }

  /**
   * Visits the Subsystem row at position `i`: a name missing from the
   * registry is onboarded and inserted, a known one is updated. The
   * result's `dirty` says whether this row staged anything.
   */
  function VisitRow(reg: Reg, db: Database, i: nat, provider: Provider, hw: Oracle, log: seq<Write>): (r: Visit)
    requires i < |db.subsystems|
    ensures SameRowsButLeds(db.subsystems, r.db.subsystems)
    ensures NamesOf(r.db.subsystems) == NamesOf(db.subsystems)
    ensures r.db.daemons == db.daemons && r.db.seqno == db.seqno
    ensures !r.dirty ==> r.db == db
    ensures log <= r.log
    ensures db.subsystems[i].name in r.registry
    ensures r.registry == reg[db.subsystems[i].name := r.registry[db.subsystems[i].name]]
  {
    var name := db.subsystems[i].name;
    if name !in reg then
      var o := AddSubsystem(db, i, provider, hw, log);
      assert NamesOf(o.db.subsystems) == NamesOf(db.subsystems);
      Visit(reg[name := o.subsys], o.db, o.log, o.dirty)
    else
      var u := ProcessChanges(reg[name], db.leds, hw, log);
      Visit(reg[name := u.subsys], db.(leds := u.rows), u.log, u.dirty)
  }

  /** Visits the Subsystem rows from position `i` on, in table order. */
  function VisitSubsystems(reg: Reg, db: Database, i: nat, provider: Provider, hw: Oracle,
                           log: seq<Write>, dirty: bool): (r: Visit)
    requires i <= |db.subsystems|
    ensures SameRowsButLeds(db.subsystems, r.db.subsystems)
    ensures r.db.daemons == db.daemons && r.db.seqno == db.seqno
    ensures dirty ==> r.dirty
    ensures !r.dirty ==> r.db == db
    ensures log <= r.log
    ensures reg.Keys <= r.registry.Keys
    ensures forall k :: k in r.registry ==> k in reg || k in NamesOf(db.subsystems)[i..]
    decreases |db.subsystems| - i
  {
    if i == |db.subsystems| then Visit(reg, db, log, dirty)
    else
      var v := VisitRow(reg, db, i, provider, hw, log);
      VisitSubsystems(v.registry, v.db, i + 1, provider, hw, v.log, dirty || v.dirty)
  }

  /**
   * One reconciliation cycle. Nothing happens when the sequence number has
   * not moved; otherwise the staged database is committed iff something was
   * staged, and only the subsystems marked during the cycle survive it.
   */
  function Reconfigure(e: Engine, db: Database, provider: Provider, hw: Oracle, log: seq<Write>): (r: Cycle)
    ensures db.seqno == e.seqno ==> r == Cycle(e, db, log)
    ensures r.engine.seqno == db.seqno
    ensures log <= r.log
    ensures e.curHwSet ==> r.engine.curHwSet && r.db.daemons == db.daemons
    ensures !e.curHwSet && db.seqno != e.seqno ==>
      (r.engine.curHwSet <==> exists j :: 0 <= j < |db.daemons| && IsDaemonRow(db.daemons[j].name))
    ensures !e.curHwSet && db.seqno != e.seqno ==>
      match FindDaemon(db.daemons)
      case None => r.db.daemons == db.daemons
      case Some(j) => r.db.daemons == db.daemons[j := db.daemons[j].(curHw := 1)]
    ensures db.seqno != e.seqno ==>
      forall k :: k in r.engine.registry ==> r.engine.registry[k].marked
  {
    if db.seqno == e.seqno then Cycle(e, db, log)
    else
      var v := VisitSubsystems(Unmark(e.registry), db, 0, provider, hw, log, false);
      var hwFlag :=
        if e.curHwSet then (v.db.daemons, true, v.dirty)
        else
          match FindDaemon(v.db.daemons)
          case None => (v.db.daemons, false, v.dirty)
          case Some(j) => (v.db.daemons[j := v.db.daemons[j].(curHw := 1)], true, true);
      var staged := v.db.(daemons := hwFlag.0);
      var committed := if hwFlag.2 then staged else db;
      Cycle(Engine(Sweep(v.registry), db.seqno, hwFlag.1), committed, v.log)
  }

  /** A registry entry that is marked is a visited, usable subsystem. */
  ghost predicate MarkedAreVisited(reg: Reg, names: seq<string>, i: nat)
    requires i <= |names|
  {
    forall k :: k in reg ==>
      && reg[k].name == k
      && CatalogWf(reg[k].types)
      && (reg[k].marked ==> k in names[..i] && reg[k].status == SubsysOk && |reg[k].leds| > 0)
  }

  /** Every registry entry is filed under its name and is a usable subsystem. */
  ghost predicate RegistryWf(reg: Reg) {
    forall k :: k in reg ==>
      && reg[k].name == k
      && reg[k].status == SubsysOk
      && |reg[k].leds| > 0
      && CatalogWf(reg[k].types)
  }

  /** A record filed under its name, with a well-formed catalog, marked only when usable. */
  ghost predicate UsableIfMarked(sub: Subsystem, name: string) {
    && sub.name == name
    && CatalogWf(sub.types)
    && (sub.marked ==> sub.status == SubsysOk && |sub.leds| > 0)
  }

  /** Filing a record that is usable if marked, for the name visited at `i`, keeps the invariant. */
  lemma MarkStep(reg: Reg, names: seq<string>, i: nat, sub: Subsystem)
    requires i < |names|
    requires MarkedAreVisited(reg, names, i)
    requires UsableIfMarked(sub, names[i])
    ensures MarkedAreVisited(reg[names[i] := sub], names, i + 1)
  {
    assert names[..i + 1] == names[..i] + [names[i]];
  }

  /** A subsystem the onboarding path marks is usable. */
  lemma OnboardedUsable(db: Database, i: nat, provider: Provider, hw: Oracle, log: seq<Write>)
    requires i < |db.subsystems|
    ensures UsableIfMarked(AddSubsystem(db, i, provider, hw, log).subsys, db.subsystems[i].name)
  {
    if OnboardSucceeds(db.subsystems[i], provider) {
      OnboardedShape(db, i, provider, hw, log);
    }
  }

  /**
   * Visiting the row of a known OK subsystem runs its update path: with
   * unique LED row ids, every LED of the filed record then caches the
   * state its rows ask for, the writes are exactly those of the LEDs whose
   * rows asked for another state and whose type is writable, in LED order,
   * and only the LED table of the database may change.
   */
  lemma VisitRowUpdatesKnown(reg: Reg, db: Database, i: nat, provider: Provider, hw: Oracle, log: seq<Write>)
    requires i < |db.subsystems| && db.subsystems[i].name in reg
    requires reg[db.subsystems[i].name].status == SubsysOk && UniqueIds(db.leds)
    ensures var name := db.subsystems[i].name;
      var v := VisitRow(reg, db, i, provider, hw, log);
      && v.db == db.(leds := v.db.leds)
      && AllSynced(v.registry[name].leds, v.db.leds)
      && LedsWritten(reg[name], reg[name].leds, db.leds, log,
                     LedsSync(v.registry[name].leds, v.db.leds, v.log, v.dirty))
  {
    var name := db.subsystems[i].name;
    ProcessChangesSyncs(reg[name], db.leds, hw, log);
    ProcessChangesWrites(reg[name], db.leds, hw, log);
  }

  /**
   * With distinct LED names as well, visiting a known OK subsystem leaves
   * each changed LED's rows holding the status that LED earned, leaves the
   * rows no LED of it names untouched, and stages a change iff it changed
   * the database.
   */
  lemma VisitRowStatusesKnown(reg: Reg, db: Database, i: nat, provider: Provider, hw: Oracle, log: seq<Write>)
    requires i < |db.subsystems| && db.subsystems[i].name in reg
    requires reg[db.subsystems[i].name].status == SubsysOk && UniqueIds(db.leds)
    requires DistinctNames(reg[db.subsystems[i].name].leds)
    ensures var name := db.subsystems[i].name;
      var v := VisitRow(reg, db, i, provider, hw, log);
      && RowsStatused(reg[name], reg[name].leds, db.leds, hw, log,
                      LedsSync(v.registry[name].leds, v.db.leds, v.log, v.dirty))
      && (forall j :: 0 <= j < |db.leds| && !NamedBy(reg[name].leds, db.leds[j].id) ==> v.db.leds[j] == db.leds[j])
      && (v.dirty <==> v.db != db)
  {
    var name := db.subsystems[i].name;
    ProcessChangesStatuses(reg[name], db.leds, hw, log);
    ProcessChangesDirty(reg[name], db.leds, hw, log);
  }

  /** Visiting the row of a known IGNORE subsystem changes nothing and writes nothing. */
  lemma VisitRowSkipsIgnored(reg: Reg, db: Database, i: nat, provider: Provider, hw: Oracle, log: seq<Write>)
    requires i < |db.subsystems| && db.subsystems[i].name in reg
    requires reg[db.subsystems[i].name].status == SubsysIgnore
    ensures var v := VisitRow(reg, db, i, provider, hw, log);
      v.db == db && v.log == log && !v.dirty && v.registry == reg
  {
  }

  /**
   * Visiting the row of a new subsystem whose onboarding succeeds files a
   * marked OK record, stages the change, points the row's LED list at one
   * row per LED carrying that LED's name, and writes once per writable LED.
   */
  lemma VisitRowOnboardsNew(reg: Reg, db: Database, i: nat, provider: Provider, hw: Oracle, log: seq<Write>)
    requires i < |db.subsystems| && db.subsystems[i].name !in reg
    requires OnboardSucceeds(db.subsystems[i], provider)
    ensures var row := db.subsystems[i];
      var v := VisitRow(reg, db, i, provider, hw, log);
      var sub := v.registry[row.name];
      && sub.marked && sub.status == SubsysOk && v.dirty
      && |sub.leds| == |provider(row.name, row.hwDescDir.value).leds|
      && |v.db.subsystems[i].leds| == |sub.leds|
      && (forall k :: 0 <= k < |sub.leds| ==>
            v.db.subsystems[i].leds[k] < |v.db.leds| && v.db.leds[v.db.subsystems[i].leds[k]].id == sub.leds[k].name)
      && |v.log| == |log| + CountWritable(sub.types, provider(row.name, row.hwDescDir.value).leds)
  {
    OnboardedShape(db, i, provider, hw, log);
  }

  /** Visiting a row, whichever path it takes, keeps LED row ids unique. */
  lemma VisitRowKeepsUniqueIds(reg: Reg, db: Database, i: nat, provider: Provider, hw: Oracle, log: seq<Write>)
    requires i < |db.subsystems| && UniqueIds(db.leds)
    ensures UniqueIds(VisitRow(reg, db, i, provider, hw, log).db.leds)
  {
    var name := db.subsystems[i].name;
    if name in reg {
      UniqueIdsKept(db.leds, ProcessChanges(reg[name], db.leds, hw, log).rows);
    } else {
      AddSubsystemKeepsUniqueIds(db, i, provider, hw, log);
    }
  }

  /**
   * The walk keeps LED row ids unique, so every known subsystem it updates
   * meets the precondition of the update path's lemmas.
   */
  lemma {:induction false} VisitKeepsUniqueIds(reg: Reg, db: Database, i: nat, provider: Provider, hw: Oracle,
                                               log: seq<Write>, dirty: bool)
    requires i <= |db.subsystems| && UniqueIds(db.leds)
    ensures UniqueIds(VisitSubsystems(reg, db, i, provider, hw, log, dirty).db.leds)
    decreases |db.subsystems| - i
  {
    if i < |db.subsystems| {
      var v := VisitRow(reg, db, i, provider, hw, log);
      VisitRowKeepsUniqueIds(reg, db, i, provider, hw, log);
      VisitKeepsUniqueIds(v.registry, v.db, i + 1, provider, hw, v.log, dirty || v.dirty);
    }
  }

  /** A cycle keeps LED row ids unique. */
  lemma CycleKeepsUniqueIds(e: Engine, db: Database, provider: Provider, hw: Oracle, log: seq<Write>)
    requires UniqueIds(db.leds)
    ensures UniqueIds(Reconfigure(e, db, provider, hw, log).db.leds)
  {
    if db.seqno != e.seqno {
      VisitKeepsUniqueIds(Unmark(e.registry), db, 0, provider, hw, log, false);
    }
  }

  /**
   * One step of the walk: visiting row `i` files one record under the
   * row's name and hands over to the rest of the walk. A new name's record
   * is usable if marked and is marked iff its onboarding succeeds; a known
   * record changes only in its LEDs' cached states and its mark, which is
   * kept and is set when the record is usable.
   */
  lemma VisitOne(reg: Reg, db: Database, i: nat, provider: Provider, hw: Oracle, log: seq<Write>, dirty: bool)
    returns (sub: Subsystem, db': Database, log': seq<Write>, dirty': bool)
    requires i < |db.subsystems|
    ensures SameRowsButLeds(db.subsystems, db'.subsystems)
    ensures NamesOf(db'.subsystems) == NamesOf(db.subsystems)
    ensures VisitSubsystems(reg, db, i, provider, hw, log, dirty) ==
            VisitSubsystems(reg[db.subsystems[i].name := sub], db', i + 1, provider, hw, log', dirty')
    ensures db.subsystems[i].name !in reg ==>
      && UsableIfMarked(sub, db.subsystems[i].name)
      && (sub.marked <==> OnboardSucceeds(db.subsystems[i], provider))
    ensures db.subsystems[i].name in reg ==>
      var prev := reg[db.subsystems[i].name];
      && sub == prev.(leds := sub.leds, marked := sub.marked)
      && |sub.leds| == |prev.leds|
      && (sub.marked <==> prev.marked || (prev.status == SubsysOk && |prev.leds| > 0))
  {
    var name := db.subsystems[i].name;
    var v := VisitRow(reg, db, i, provider, hw, log);
    sub, db', log', dirty' := v.registry[name], v.db, v.log, dirty || v.dirty;
    if name !in reg {
      OnboardedUsable(db, i, provider, hw, log);
    }
  }

  /** Visiting keeps marked entries visited and usable. */
  lemma {:induction false} VisitMarksOnlyVisited(reg: Reg, db: Database, i: nat, provider: Provider, hw: Oracle,
                                                 log: seq<Write>, dirty: bool)
    requires i <= |db.subsystems|
    requires MarkedAreVisited(reg, NamesOf(db.subsystems), i)
    ensures MarkedAreVisited(VisitSubsystems(reg, db, i, provider, hw, log, dirty).registry,
                             NamesOf(db.subsystems), |db.subsystems|)
    decreases |db.subsystems| - i
  {
    if i < |db.subsystems| {
      var names := NamesOf(db.subsystems);
      var name := db.subsystems[i].name;
      var sub, db', log', dirty' := VisitOne(reg, db, i, provider, hw, log, dirty);
      if name in reg {
        assert UsableIfMarked(reg[name], name);
      }
      MarkStep(reg, names, i, sub);
      VisitMarksOnlyVisited(reg[name := sub], db', i + 1, provider, hw, log', dirty');
    }
  }

  /**
   * Mark-and-sweep soundness: after a cycle in which the sequence number
   * moved, every surviving subsystem was reported by the database in that
   * cycle and is usable (OK, with LEDs and a well-formed catalog). In
   * particular a subsystem whose onboarding failed, or one left IGNORE, is
   * removed in the same cycle rather than quarantined.
   */
  lemma CycleSurvivorsReported(e: Engine, db: Database, provider: Provider, hw: Oracle, log: seq<Write>)
    requires RegistryWf(e.registry)
    requires db.seqno != e.seqno
    ensures var r := Reconfigure(e, db, provider, hw, log);
      && RegistryWf(r.engine.registry)
      && forall k :: k in r.engine.registry ==> k in ReportedNames(db)
  {
    var reg0 := Unmark(e.registry);
    var names := NamesOf(db.subsystems);
    var v := VisitSubsystems(reg0, db, 0, provider, hw, log, false);
    assert MarkedAreVisited(reg0, names, 0);
    VisitMarksOnlyVisited(reg0, db, 0, provider, hw, log, false);
    SweptAreVisited(v.registry, names);
    NamesAreReported(db);
    assert Reconfigure(e, db, provider, hw, log).engine.registry == Sweep(v.registry);
  }

  /** After a full walk, the sweep keeps only visited, usable subsystems. */
  lemma SweptAreVisited(reg: Reg, names: seq<string>)
    requires MarkedAreVisited(reg, names, |names|)
    ensures RegistryWf(Sweep(reg))
    ensures forall k :: k in Sweep(reg) ==> k in names
  {
    assert names[..|names|] == names;
  }

  /** Every Subsystem row's name is a reported name. */
  lemma NamesAreReported(db: Database)
    ensures forall k :: k in NamesOf(db.subsystems) ==> k in ReportedNames(db)
  {
    var names := NamesOf(db.subsystems);
    forall k | k in names ensures k in ReportedNames(db) {
      var j :| 0 <= j < |names| && names[j] == k;
      assert db.subsystems[j].name == k;
    }
  }

  /**
   * The entries of `reg0` are still present and usable in `reg`, and
   * those named by the first `i` rows are marked.
   */
  ghost predicate KnownKept(reg0: Reg, reg: Reg, rows: seq<SubsysRow>, i: nat)
    requires i <= |rows|
  {
    && (forall k :: k in reg0 ==> k in reg && reg[k].status == SubsysOk && |reg[k].leds| > 0)
    && (forall j :: 0 <= j < i && rows[j].name in reg0 ==> reg[rows[j].name].marked)
  }

  /** Filing a record for row `i` that is usable and marked if its name is known keeps the invariant. */
  lemma KnownStep(reg0: Reg, reg: Reg, rows: seq<SubsysRow>, i: nat, sub: Subsystem)
    requires i < |rows|
    requires KnownKept(reg0, reg, rows, i)
    requires rows[i].name in reg0 ==> sub.status == SubsysOk && |sub.leds| > 0 && sub.marked
    requires rows[i].name in reg && reg[rows[i].name].marked ==> sub.marked
    ensures KnownKept(reg0, reg[rows[i].name := sub], rows, i + 1)
  {
  }

  /** Visiting marks every reported subsystem that was already known and usable. */
  lemma {:induction false} VisitKeepsKnown(reg0: Reg, reg: Reg, rows: seq<SubsysRow>, db: Database, i: nat,
                                           provider: Provider, hw: Oracle, log: seq<Write>, dirty: bool)
    requires i <= |db.subsystems|
    requires SameRowsButLeds(rows, db.subsystems)
    requires KnownKept(reg0, reg, rows, i)
    ensures KnownKept(reg0, VisitSubsystems(reg, db, i, provider, hw, log, dirty).registry, rows, |rows|)
    decreases |db.subsystems| - i
  {
    if i < |db.subsystems| {
      var name := db.subsystems[i].name;
      assert name == rows[i].name;
      var sub, db', log', dirty' := VisitOne(reg, db, i, provider, hw, log, dirty);
      KnownStep(reg0, reg, rows, i, sub);
      assert SameRowsButLeds(rows, db'.subsystems);
      VisitKeepsKnown(reg0, reg[name := sub], rows, db', i + 1, provider, hw, log', dirty');
    }
  }

  /**
   * For names new to `reg0`: those of the first `i` rows are in `reg` and
   * marked exactly when their onboarding succeeds; those of later rows are
   * not in `reg` yet.
   */
  ghost predicate NewTracked(reg0: Reg, reg: Reg, rows: seq<SubsysRow>, i: nat, provider: Provider)
    requires i <= |rows|
  {
    && reg0.Keys <= reg.Keys
    && (forall j :: 0 <= j < i && rows[j].name !in reg0 ==>
          rows[j].name in reg && (reg[rows[j].name].marked <==> OnboardSucceeds(rows[j], provider)))
    && (forall j :: i <= j < |rows| && rows[j].name !in reg0 ==> rows[j].name !in reg)
  }

  /** Onboarding success reads only the row's name and description directory. */
  lemma OnboardSucceedsIgnoresLeds(row: SubsysRow, leds: seq<nat>, provider: Provider)
    ensures OnboardSucceeds(row.(leds := leds), provider) == OnboardSucceeds(row, provider)
  {
  }

  /** Filing a record for row `i` that is marked iff a new name onboards keeps the invariant. */
  lemma NewStep(reg0: Reg, reg: Reg, rows: seq<SubsysRow>, i: nat, sub: Subsystem, provider: Provider)
    requires i < |rows|
    requires UniqueNames(rows)
    requires NewTracked(reg0, reg, rows, i, provider)
    requires rows[i].name !in reg0 ==> (sub.marked <==> OnboardSucceeds(rows[i], provider))
    ensures NewTracked(reg0, reg[rows[i].name := sub], rows, i + 1, provider)
  {
  }

  /** With unique subsystem names, visiting onboards each new name exactly once. */
  lemma {:induction false} VisitTracksNew(reg0: Reg, reg: Reg, rows: seq<SubsysRow>, db: Database, i: nat,
                                          provider: Provider, hw: Oracle, log: seq<Write>, dirty: bool)
    requires i <= |db.subsystems|
    requires UniqueNames(rows)
    requires SameRowsButLeds(rows, db.subsystems)
    requires NewTracked(reg0, reg, rows, i, provider)
    ensures NewTracked(reg0, VisitSubsystems(reg, db, i, provider, hw, log, dirty).registry,
                       rows, |rows|, provider)
    decreases |db.subsystems| - i
  {
    if i < |db.subsystems| {
      var name := db.subsystems[i].name;
      assert name == rows[i].name;
      var sub, db', log', dirty' := VisitOne(reg, db, i, provider, hw, log, dirty);
      OnboardSucceedsIgnoresLeds(rows[i], db.subsystems[i].leds, provider);
      NewStep(reg0, reg, rows, i, sub, provider);
      assert SameRowsButLeds(rows, db'.subsystems);
      VisitTracksNew(reg0, reg[name := sub], rows, db', i + 1, provider, hw, log', dirty');
    }
  }

  /**
   * Mark-and-sweep exactness: with a well-formed registry and unique
   * subsystem names, after a cycle in which the sequence number moved the
   * registry holds exactly the reported subsystems that were known before
   * or whose onboarding succeeded; every unreported one is gone.
   */
  lemma CycleRegistryExact(e: Engine, db: Database, provider: Provider, hw: Oracle, log: seq<Write>)
    requires RegistryWf(e.registry)
    requires UniqueNames(db.subsystems)
    requires db.seqno != e.seqno
    ensures var reg := Reconfigure(e, db, provider, hw, log).engine.registry;
      && RegistryWf(reg)
      && (forall k :: k in reg ==> k in ReportedNames(db))
      && (forall k :: k in e.registry && k in ReportedNames(db) ==> k in reg)
      && (forall j :: 0 <= j < |db.subsystems| && db.subsystems[j].name !in e.registry ==>
            (db.subsystems[j].name in reg <==> OnboardSucceeds(db.subsystems[j], provider)))
  {
    var reg0 := Unmark(e.registry);
    CycleSurvivorsReported(e, db, provider, hw, log);
    VisitKeepsKnown(reg0, reg0, db.subsystems, db, 0, provider, hw, log, false);
    forall k | k in e.registry && k in ReportedNames(db)
      ensures k in Reconfigure(e, db, provider, hw, log).engine.registry
    {
      var j :| 0 <= j < |db.subsystems| && db.subsystems[j].name == k;
    }
    VisitTracksNew(reg0, reg0, db.subsystems, db, 0, provider, hw, log, false);
  }

  /**
   * Committing only when something was staged loses nothing: the database
   * after the cycle holds every LED row and Subsystem row change the visit
   * staged.
   */
  lemma CommitKeepsStaged(e: Engine, db: Database, provider: Provider, hw: Oracle, log: seq<Write>)
    requires db.seqno != e.seqno
    ensures var v := VisitSubsystems(Unmark(e.registry), db, 0, provider, hw, log, false);
      var r := Reconfigure(e, db, provider, hw, log);
      && r.db.leds == v.db.leds
      && r.db.subsystems == v.db.subsystems
      && r.log == v.log
  {
  }
}

=== FILE: led_context.dfy ===
/**
 * The running-configuration callback for LEDs
 * (src/cli/vtysh_ovsdb_led_context.c): one line `led <id> <state>` for
 * every LED row whose state is not the default "off", compared without
 * regard to ASCII case, in table order.
 */
module LedContext {
  import opened Wrappers
  import opened LedModel
  import opened Conversions
  import opened Store

  /** The shell's callback return codes. */
  datatype VtyshRet = VtyshOk | VtyshError

  /** The default LED state, which the running configuration omits. */
  const DefaultLedState: string := "off"

  /** ASCII lower-casing, as the C library does it in the C locale. */
  function ToLower(c: char): (r: char)
    ensures 'A' <= c <= 'Z' ==> 'a' <= r <= 'z' && r as int - c as int == 32
    ensures !('A' <= c <= 'Z') ==> r == c
  {
    if 'A' <= c <= 'Z' then (c as int + 32) as char else c
  }

  /** Case-insensitive string equality (strcasecmp returning 0). */
  predicate EqualsIgnoringCase(a: string, b: string) {
    |a| == |b| && forall i :: 0 <= i < |a| ==> ToLower(a[i]) == ToLower(b[i])
  }

  /** True iff `state` is the default state in any letter case. */
  predicate IsDefaultState(state: string) {
    EqualsIgnoringCase(state, DefaultLedState)
  }

  /** Every LED row has a state (the callback reads it without a NULL check). */
  ghost predicate StatesPresent(rows: seq<LedRow>) {
    forall i :: 0 <= i < |rows| ==> rows[i].state.Some?
  }

  /** True iff row `i` is emitted. */
  predicate Emits(rows: seq<LedRow>, i: nat)
    requires i < |rows| && rows[i].state.Some?
  {
    !IsDefaultState(rows[i].state.value)
  }

  /** The running-configuration line of one row. */
  function ConfigLine(row: LedRow): string
    requires row.state.Some?
  {
    "led " + row.id + " " + row.state.value
  }

  /** The positions of the emitted rows, in table order. */
  ghost function EmittedRows(rows: seq<LedRow>): (r: seq<nat>)
    requires StatesPresent(rows)
    decreases |rows|
  {
    if |rows| == 0 then []
    else
      var front := rows[..|rows| - 1];
      EmittedRows(front) + (if Emits(rows, |rows| - 1) then [|rows| - 1] else [])
  }

  /**
   * The emitted positions are strictly increasing, in range, and are
   * exactly the rows whose state is not the default.
   */
  lemma {:induction false} EmittedRowsExact(rows: seq<LedRow>)
    requires StatesPresent(rows)
    ensures var e := EmittedRows(rows);
      && (forall j :: 0 <= j < |e| ==> e[j] < |rows|)
      && (forall j, j' :: 0 <= j < j' < |e| ==> e[j] < e[j'])
      && (forall i :: 0 <= i < |rows| ==> (i in e <==> Emits(rows, i)))
    decreases |rows|
  {
    if |rows| > 0 {
      var front := rows[..|rows| - 1];
      EmittedRowsExact(front);
      var e := EmittedRows(rows);
      var ef := EmittedRows(front);
      forall i | 0 <= i < |rows| ensures i in e <==> Emits(rows, i) {
        if i < |rows| - 1 {
          assert front[i] == rows[i];
          assert Emits(front, i) == Emits(rows, i);
        }
      }
    }
  }

  /**
   * Emits the running configuration of the LED table
   * (vtysh_config_context_led_clientcallback): one line per row whose
   * state is not "off" in any case, for that row, in table order; the
   * callback always succeeds.
   */
  method LedClientCallback(rows: seq<LedRow>) returns (lines: seq<string>, ret: VtyshRet)
    requires StatesPresent(rows)
    ensures ret == VtyshOk
    ensures |lines| == |EmittedRows(rows)|
    ensures forall j :: 0 <= j < |lines| ==>
      EmittedRows(rows)[j] < |rows| && lines[j] == ConfigLine(rows[EmittedRows(rows)[j]])
  {
    lines := [];
    var i := 0;
    while i < |rows|
      invariant 0 <= i <= |rows|
      invariant StatesPresent(rows[..i])
      invariant |lines| == |EmittedRows(rows[..i])|
      invariant forall j :: 0 <= j < |lines| ==>
        EmittedRows(rows[..i])[j] < i && lines[j] == ConfigLine(rows[EmittedRows(rows[..i])[j]])
    {
      EmittedRowsExact(rows[..i]);
      assert rows[..i + 1][..i] == rows[..i];
      assert rows[..i + 1][i] == rows[i];
      if !IsDefaultState(rows[i].state.value) {
        lines := lines + [ConfigLine(rows[i])];
      }
      i := i + 1;
    }
    assert rows[..i] == rows;
    ret := VtyshOk;
  }

  /** The default state is recognised in any letter case, and only the word "off". */
  lemma DefaultStateSpelling(state: string)
    ensures IsDefaultState(state) <==>
      |state| == 3 && ToLower(state[0]) == 'o' && ToLower(state[1]) == 'f' && ToLower(state[2]) == 'f'
  {
  }

  /**
   * For the schema's own state strings the callback agrees with the
   * daemon: a row is emitted iff the daemon reads its state as other than
   * Off.
   */
  lemma EmitsAgreesWithDaemon(row: LedRow)
    requires row.state.Some? && IsStateString(row.state.value)
    ensures !IsDefaultState(row.state.value) <==> StateToEnum(row.state) != Off
  {
    StateStringsAre(row.state.value);
    if row.state.value == "flashing" {
      assert !IsDefaultState(row.state.value);
    } else if row.state.value == "on" {
      assert |row.state.value| != |DefaultLedState|;
    }
  }
}

=== FILE: led_model.dfy ===
/**
 * The data model of the platform LED daemon (include/ledd.h): the string
 * tables that define the state, status and type enumerations, the
 * subsystem status, and the subsystem and LED records.
 */
module LedModel {
  import opened Wrappers

  /** Logical LED state; the declaration order is the enum order. */
  datatype LedState = Flashing | Off | On {
    /** Position of this state in the state string table. */
    function Code(): nat {
      match this
      case Flashing => 0
      case Off => 1
      case On => 2
    }
  }

  /** Outcome of the last LED write; the declaration order is the enum order. */
  datatype LedStatus = Fault | Ok | Uninitialized {
    /** Position of this status in the status string table. */
    function Code(): nat {
      match this
      case Fault => 0
      case Ok => 1
      case Uninitialized => 2
    }
  }

  /** Whether a subsystem is processed (SubsysOk) or skipped (SubsysIgnore). */
  datatype SubsysStatus = SubsysOk | SubsysIgnore

  /** The state strings of the LED table's schema, in enum order. */
  const StateStrings: seq<string> := ["flashing", "off", "on"]

  /** The status strings of the LED table's schema, in enum order. */
  const StatusStrings: seq<string> := ["fault", "ok", "uninitialized"]

  /** The LED type names the daemon knows how to drive. */
  const LedTypeLoc: string := "loc"
  const LedTypeStrings: seq<string> := [LedTypeLoc]

  /** A register value, as the uint32_t handed to the register write. */
  type Value = v: int | 0 <= v < 0x1_0000_0000

  /** The register value for each logical state of one LED type. */
  datatype Settings = Settings(flashing: Value, off: Value, on: Value)

  /**
   * The opaque register access descriptor of a LED (device, register and
   * bit mask); the model only forwards it to the register write.
   */
  datatype RegisterOp = RegisterOp(device: string, register: nat, mask: nat)

  /** A LED type as parsed from the hardware description. */
  datatype LedType = LedType(typeName: string, settings: Settings)

  /** A LED as parsed from the hardware description. */
  datatype DescLed = DescLed(name: string, typeName: string, access: RegisterOp)

  /**
   * The daemon's record of one LED. `subsystem` is the name of the owning
   * subsystem (a lookup key rather than a pointer), `settings` is None when
   * the LED's type did not resolve, and `state`/`status` are the cached
   * values.
   */
  datatype Led = Led(
    name: string,
    subsystem: string,
    desc: DescLed,
    settings: Option<Settings>,
    state: LedState,
    status: LedStatus)

  /**
   * The daemon's record of one subsystem. `leds` holds the LED table's
   * entries, keyed by their descriptor LED name `desc.name` (the table
   * admits repeated keys, so it is kept as a sequence); `types` is the type
   * catalog keyed by type name. The parent link is never populated and is
   * not modelled.
   */
  datatype Subsystem = Subsystem(
    name: string,
    marked: bool,
    numLeds: int,
    numTypes: int,
    leds: seq<Led>,
    types: map<string, LedType>,
    status: SubsysStatus)

  /** True iff `t` is one of the recognised LED type names. */
  predicate IsRecognisedType(t: string) {
    t in LedTypeStrings
  }

  /** The recognised LED type set is exactly {"loc"}. */
  lemma RecognisedTypesAreLoc(t: string)
    ensures IsRecognisedType(t) <==> t == "loc"
  {
  }

  /** The string tables are indexed by the enum codes. */
  lemma TablesFollowEnumOrder()
    ensures forall s: LedState :: s.Code() < |StateStrings|
    ensures StateStrings[Flashing.Code()] == "flashing"
    ensures StateStrings[Off.Code()] == "off"
    ensures StateStrings[On.Code()] == "on"
    ensures forall s: LedStatus :: s.Code() < |StatusStrings|
    ensures StatusStrings[Fault.Code()] == "fault"
    ensures StatusStrings[Ok.Code()] == "ok"
    ensures StatusStrings[Uninitialized.Code()] == "uninitialized"
  {
  }

  /** A catalog is well formed when every entry is filed under its own type name. */
  ghost predicate CatalogWf(catalog: map<string, LedType>) {
    forall k :: k in catalog ==> catalog[k].typeName == k && IsRecognisedType(k)
  }
}

=== FILE: led_write.dfy ===
/**
 * LED type lookup and the register write of a LED (src/ledd.c): the
 * two-level resolution from a LED's type name to a type behaviour and from
 * the LED's state to a register value, followed by the register write. The
 * register write itself is an oracle.
 */
module LedWrite {
  import opened Wrappers
  import opened LedModel
  import opened Conversions

  /** The LED type behaviours the daemon implements. */
  datatype LedTypeValue = LedLoc | LedUnknown

  /** A register write request: subsystem, access descriptor and value. */
  datatype Write = Write(subsys: string, op: RegisterOp, value: Value)

  /**
   * The register write primitive: given the writes performed before and
   * the new write, the return code of the new write (0 means success).
   */
  type Oracle = (seq<Write>, Write) -> int

  /** Maps a type name to its behaviour; only "loc" is known. */
  function TypeStringToEnum(t: string): (r: LedTypeValue)
    ensures r == LedLoc <==> t == LedTypeLoc
    ensures r == LedLoc <==> IsRecognisedType(t)
  {
    if t == "loc" then LedLoc else LedUnknown
  }

  /** Finds the catalog entry for the type named `name` (ledd_get_led_type). */
  function GetLedType(catalog: map<string, LedType>, name: string): (r: Option<LedType>)
    ensures r.Some? ==> r.value in catalog.Values
    ensures CatalogWf(catalog) && r.Some? ==> r.value.typeName == name
    ensures CatalogWf(catalog) ==>
      (r.None? <==> forall k :: k in catalog ==> catalog[k].typeName != name)
  {
    if name in catalog then Some(catalog[name]) else None
  }

  /** The register value a type's settings give for `state`. */
  function ValueFor(settings: Settings, state: LedState): Value {
    match state
    case Flashing => settings.flashing
    case Off => settings.off
    case On => settings.on
  }

  /**
   * True iff the LED's type is in the catalog and has the "loc" behaviour,
   * so that a register value can be resolved for it.
   */
  predicate Writable(catalog: map<string, LedType>, led: DescLed) {
    && led.typeName in catalog
    && TypeStringToEnum(catalog[led.typeName].typeName) == LedLoc
  }

  /** The outcome of a LED write and the write log after it. */
  datatype WriteOutcome = WriteOutcome(ok: bool, log: seq<Write>)

  /**
   * Writes the register value for the LED's cached state (ledd_write_led).
   * Without a resolvable "loc" type nothing is written and the write fails;
   * otherwise exactly one write is issued and it succeeds iff the primitive
   * returns 0.
   */
  function WriteLed(subsysName: string, catalog: map<string, LedType>, led: Led,
                    hw: Oracle, log: seq<Write>): (r: WriteOutcome)
    ensures !Writable(catalog, led.desc) ==> !r.ok && r.log == log
    ensures Writable(catalog, led.desc) ==>
      && r.log == log + [Write(subsysName, led.desc.access,
                               ValueFor(catalog[led.desc.typeName].settings, led.state))]
      && (r.ok <==> hw(log, r.log[|log|]) == 0)
    ensures r.ok ==> |r.log| == |log| + 1 && hw(log, r.log[|log|]) == 0
  {
    match GetLedType(catalog, led.desc.typeName)
    case None => WriteOutcome(false, log)
    case Some(t) =>
      match TypeStringToEnum(t.typeName)
      case LedUnknown => WriteOutcome(false, log)
      case LedLoc =>
        var w := Write(subsysName, led.desc.access, ValueFor(t.settings, led.state));
        WriteOutcome(hw(log, w) == 0, log + [w])
  }

  /** In a well-formed catalog, a LED is writable exactly when its type is catalogued. */
  lemma WritableIffCatalogued(catalog: map<string, LedType>, led: DescLed)
    requires CatalogWf(catalog)
    ensures Writable(catalog, led) <==> GetLedType(catalog, led.typeName).Some?
  {
    if led.typeName in catalog {
      RecognisedTypesAreLoc(led.typeName);
    }
  }

  /**
   * Two writes of different states are two separate writes, each carrying
   * its own state's value.
   */
  lemma SuccessiveWritesAreSeparate(subsysName: string, catalog: map<string, LedType>,
                                    led: Led, s1: LedState, s2: LedState,
                                    hw: Oracle, log: seq<Write>)
    requires Writable(catalog, led.desc)
    ensures var w1 := WriteLed(subsysName, catalog, led.(state := s1), hw, log);
            var w2 := WriteLed(subsysName, catalog, led.(state := s2), hw, w1.log);
            && |w2.log| == |log| + 2
            && w2.log[|log|].value == ValueFor(catalog[led.desc.typeName].settings, s1)
            && w2.log[|log| + 1].value == ValueFor(catalog[led.desc.typeName].settings, s2)
  {
  }
}

=== FILE: onboard.dfy ===
/**
 * The onboarding path for a subsystem the daemon has not seen before
 * (add_subsystem in src/ledd.c): the subsystem starts unmarked and IGNORE;
 * if its hardware description loads and declares at least one type and one
 * LED, the recognised types form its catalog, every LED is created OFF,
 * written once, and published to the LED table, and the subsystem ends
 * marked and OK.
 */
module Onboard {
  import opened Wrappers
  import opened LedModel
  import opened Conversions
  import opened Store
  import opened LedWrite

  /** The counts the description's LED information declares. */
  datatype LedInfo = LedInfo(numberTypes: int, numberLeds: int)

  /**
   * What the hardware description provider answers for one subsystem:
   * whether loading the description, parsing its devices and parsing its
   * LEDs succeeded, the LED information (None when absent), the parsed LED
   * types (None for an entry that could not be read) and the parsed LEDs.
   * The parsed counts are the lengths of the two lists.
   */
  datatype Descriptor = Descriptor(
    loaded: bool,
    devicesParsed: bool,
    ledsParsed: bool,
    info: Option<LedInfo>,
    types: seq<Option<LedType>>,
    leds: seq<DescLed>)

  /** The provider, queried with a subsystem name and its description directory. */
  type Provider = (string, string) -> Descriptor

  /** The outcome of onboarding one LED. */
  datatype LedStep = LedStep(led: Led, rows: seq<LedRow>, ref: nat, log: seq<Write>)

  /** The outcome of onboarding a list of LEDs. */
  datatype Published = Published(leds: seq<Led>, rows: seq<LedRow>, refs: seq<nat>, log: seq<Write>)

  /** The outcome of onboarding a subsystem. */
  datatype Onboarded = Onboarded(subsys: Subsystem, db: Database, log: seq<Write>, dirty: bool)

  /** The record inserted for a new subsystem before anything is loaded. */
  function NewSubsystem(name: string): (r: Subsystem)
    ensures r.name == name && !r.marked && r.status == SubsysIgnore
    ensures r.leds == [] && r.types == map[]
  {
    Subsystem(name, false, 0, 0, [], map[], SubsysIgnore)
  }

  /** The displayed name of a LED: the subsystem name, a dash, the descriptor LED name. */
  function LedName(subsysName: string, ledName: string): (r: string)
    ensures |r| == |subsysName| + 1 + |ledName|
    ensures r[..|subsysName|] == subsysName && r[|subsysName|] == '-' && r[|subsysName| + 1..] == ledName
  {
    subsysName + "-" + ledName
  }

  /** True iff the description can be loaded and yields at least one type and one LED. */
  predicate Usable(d: Descriptor) {
    d.loaded && d.devicesParsed && d.ledsParsed && d.info.Some? && |d.leds| > 0 && |d.types| > 0
  }

  /** True iff onboarding the subsystem row succeeds with this provider. */
  predicate OnboardSucceeds(row: SubsysRow, provider: Provider) {
    row.hwDescDir.Some? && row.hwDescDir.value != "" && Usable(provider(row.name, row.hwDescDir.value))
  }

  /**
   * The type catalog built from the parsed types in order: unreadable
   * entries and unrecognised type names are dropped, and a later entry
   * with the same name replaces an earlier one.
   */
  function BuildCatalog(types: seq<Option<LedType>>): (r: map<string, LedType>)
    ensures CatalogWf(r)
    ensures forall i :: 0 <= i < |types| && types[i].Some? && IsRecognisedType(types[i].value.typeName) ==>
      types[i].value.typeName in r
    ensures forall k :: k in r ==>
      (exists i :: 0 <= i < |types| && types[i] == Some(r[k]) &&
        (forall j :: i < j < |types| && types[j].Some? ==> types[j].value.typeName != k))
    decreases |types|
  {
    if |types| == 0 then map[]
    else
      var front := types[..|types| - 1];
      var c := BuildCatalog(front);
      match types[|types| - 1]
      case None => c
      case Some(t) => if IsRecognisedType(t.typeName) then c[t.typeName := t] else c
  }

  /**
   * The row of the LED named `name`: the first row with that id, or a new
   * row with state "off" appended when none has it.
   */
  function FindOrInsertRow(rows: seq<LedRow>, name: string): (r: (seq<LedRow>, nat))
    ensures r.1 < |r.0| && r.0[r.1].id == name
    ensures (exists i :: 0 <= i < |rows| && rows[i].id == name) ==> r.0 == rows
    ensures (forall i :: 0 <= i < |rows| ==> rows[i].id != name) ==>
      r.0 == rows + [LedRow(name, Some(StateToString(Off.Code())), None)]
  {
    match LookupLed(rows, name)
    case Some(i) => (rows, i)
    case None => (rows + [LedRow(name, Some(StateToString(Off.Code())), None)], |rows|)
  }

  /** Stores `status` in the row at `ref`, leaving every other row and every key alone. */
  function SetRowStatus(rows: seq<LedRow>, ref: nat, status: LedStatus): (r: seq<LedRow>)
    requires ref < |rows|
    ensures SameKeys(rows, r)
    ensures r[ref] == rows[ref].(status := Some(StatusToString(status.Code())))
    ensures forall i :: 0 <= i < |rows| && i != ref ==> r[i] == rows[i]
  {
    rows[ref := rows[ref].(status := Some(StatusToString(status.Code())))]
  }

  /**
   * Onboards one descriptor LED: creates it OFF, looks up its row (inserting
   * one with state "off" when none has its id), writes it, and stores the
   * write's status both in the LED and in the row.
   */
  function OnboardLed(subsysName: string, catalog: map<string, LedType>, d: DescLed,
                      rows: seq<LedRow>, hw: Oracle, log: seq<Write>): (r: LedStep)
    ensures r.led.name == LedName(subsysName, d.name)
    ensures r.led.subsystem == subsysName && r.led.desc == d && r.led.state == Off
    ensures r.led.settings.Some? <==> d.typeName in catalog
    ensures r.led.settings.Some? ==> r.led.settings.value == catalog[d.typeName].settings
    ensures (exists i :: 0 <= i < |rows| && rows[i].id == r.led.name) ==> |r.rows| == |rows|
    ensures (forall i :: 0 <= i < |rows| ==> rows[i].id != r.led.name) ==>
      |r.rows| == |rows| + 1 && r.rows[|rows|].state == Some(StateToString(Off.Code()))
    ensures ExtendsKeys(rows, r.rows)
    ensures r.ref < |r.rows| && r.rows[r.ref].id == r.led.name
    ensures r.rows[r.ref].status == Some(StatusToString(r.led.status.Code()))
    ensures forall i :: 0 <= i < |rows| && i != r.ref ==> r.rows[i] == rows[i]
    ensures Writable(catalog, d) ==>
      && |r.log| == |log| + 1 && r.log[..|log|] == log
      && r.log[|log|] == Write(subsysName, d.access, ValueFor(catalog[d.typeName].settings, Off))
    ensures !Writable(catalog, d) ==> r.log == log
    ensures r.led.status == Ok <==> |r.log| == |log| + 1 && hw(log, r.log[|log|]) == 0
  {
    var name := LedName(subsysName, d.name);
    var t := GetLedType(catalog, d.typeName);
    var led0 := Led(name, subsysName, d,
                    if t.Some? then Some(t.value.settings) else None,
                    Off,
                    if t.Some? then Ok else Fault);
    var (rows1, ref) := FindOrInsertRow(rows, name);
    var w := WriteLed(subsysName, catalog, led0, hw, log);
    var led1 := led0.(status := if w.ok then Ok else Fault);
    LedStep(led1, SetRowStatus(rows1, ref, led1.status), ref, w.log)
  }

  /** The number of descriptor LEDs whose type resolves to a writable type. */
  function CountWritable(catalog: map<string, LedType>, descs: seq<DescLed>): (r: nat)
    ensures r <= |descs|
    decreases |descs|
  {
    if |descs| == 0 then 0
    else (if Writable(catalog, descs[0]) then 1 else 0) + CountWritable(catalog, descs[1..])
  }

  /** Onboards the descriptor LEDs in order (the LED loop of add_subsystem). */
  function PublishLeds(subsysName: string, catalog: map<string, LedType>, descs: seq<DescLed>,
                       rows: seq<LedRow>, hw: Oracle, log: seq<Write>): (r: Published)
    ensures |r.leds| == |descs| && |r.refs| == |descs|
    ensures ExtendsKeys(rows, r.rows)
    ensures UniqueIds(rows) ==> UniqueIds(r.rows)
    ensures |log| <= |r.log| && r.log[..|log|] == log
    decreases |descs|
  {
    if |descs| == 0 then Published([], rows, [], log)
    else
      var s := OnboardLed(subsysName, catalog, descs[0], rows, hw, log);
      OnboardLedKeepsUniqueIds(subsysName, catalog, descs[0], rows, hw, log);
      var rest := PublishLeds(subsysName, catalog, descs[1..], s.rows, hw, s.log);
      Published([s.led] + rest.leds, rest.rows, [s.ref] + rest.refs, rest.log)
  }

  /** Every published LED carries its display name, its descriptor and state OFF. */
  lemma {:induction false} PublishedLeds(subsysName: string, catalog: map<string, LedType>, descs: seq<DescLed>,
                                         rows: seq<LedRow>, hw: Oracle, log: seq<Write>)
    ensures var r := PublishLeds(subsysName, catalog, descs, rows, hw, log);
      forall k :: 0 <= k < |descs| ==>
        && r.leds[k].name == LedName(subsysName, descs[k].name)
        && r.leds[k].subsystem == subsysName
        && r.leds[k].desc == descs[k]
        && r.leds[k].state == Off
        && (r.leds[k].settings.Some? <==> descs[k].typeName in catalog)
        && (r.leds[k].status == Ok ==> Writable(catalog, descs[k]))
    decreases |descs|
  {
    if |descs| > 0 {
      var s := OnboardLed(subsysName, catalog, descs[0], rows, hw, log);
      var rest := PublishLeds(subsysName, catalog, descs[1..], s.rows, hw, s.log);
      PublishedLeds(subsysName, catalog, descs[1..], s.rows, hw, s.log);
      var r := PublishLeds(subsysName, catalog, descs, rows, hw, log);
      forall k | 0 <= k < |descs|
        ensures r.leds[k].name == LedName(subsysName, descs[k].name)
        ensures r.leds[k].subsystem == subsysName && r.leds[k].desc == descs[k] && r.leds[k].state == Off
        ensures r.leds[k].settings.Some? <==> descs[k].typeName in catalog
        ensures r.leds[k].status == Ok ==> Writable(catalog, descs[k])
      {
        if k > 0 {
          assert r.leds[k] == rest.leds[k - 1] && descs[k] == descs[1..][k - 1];
        }
      }
    }
  }

  /** Each LED's row reference points at a row carrying the LED's name. */
  ghost predicate RefsNameRows(p: Published) {
    && |p.refs| == |p.leds|
    && forall k :: 0 <= k < |p.refs| ==> p.refs[k] < |p.rows| && p.rows[p.refs[k]].id == p.leds[k].name
  }

  /**
   * Every published LED has a row with its id, and the rows the LEDs point
   * at are the rows returned.
   */
  lemma {:induction false} PublishedRefs(subsysName: string, catalog: map<string, LedType>, descs: seq<DescLed>,
                                         rows: seq<LedRow>, hw: Oracle, log: seq<Write>)
    ensures RefsNameRows(PublishLeds(subsysName, catalog, descs, rows, hw, log))
    decreases |descs|
  {
    if |descs| > 0 {
      var s := OnboardLed(subsysName, catalog, descs[0], rows, hw, log);
      var rest := PublishLeds(subsysName, catalog, descs[1..], s.rows, hw, s.log);
      PublishedRefs(subsysName, catalog, descs[1..], s.rows, hw, s.log);
      var r := PublishLeds(subsysName, catalog, descs, rows, hw, log);
      assert r.rows == rest.rows && r.refs == [s.ref] + rest.refs && r.leds == [s.led] + rest.leds;
      forall k | 0 <= k < |descs|
        ensures r.refs[k] < |r.rows| && r.rows[r.refs[k]].id == r.leds[k].name
      {
        if k > 0 {
          assert r.leds[k] == rest.leds[k - 1] && r.refs[k] == rest.refs[k - 1];
        } else {
          assert rest.rows[s.ref].id == s.rows[s.ref].id;
        }
      }
    }
  }

  /**
   * Onboarding issues exactly one register write per LED whose type is
   * writable, and every write is addressed to this subsystem.
   */
  lemma {:induction false} PublishedWrites(subsysName: string, catalog: map<string, LedType>, descs: seq<DescLed>,
                                           rows: seq<LedRow>, hw: Oracle, log: seq<Write>)
    ensures var r := PublishLeds(subsysName, catalog, descs, rows, hw, log);
      && |r.log| == |log| + CountWritable(catalog, descs)
      && forall i :: |log| <= i < |r.log| ==> r.log[i].subsys == subsysName
    decreases |descs|
  {
    if |descs| > 0 {
      var s := OnboardLed(subsysName, catalog, descs[0], rows, hw, log);
      PublishedWrites(subsysName, catalog, descs[1..], s.rows, hw, s.log);
      var r := PublishLeds(subsysName, catalog, descs, rows, hw, log);
      forall i | |log| <= i < |r.log| ensures r.log[i].subsys == subsysName {
        if i < |s.log| {
          assert r.log[..|s.log|] == s.log;
          assert r.log[i] == s.log[i];
        }
      }
    }
  }

  /**
   * The write and the status of every published LED: the LED at position
   * `k` owns the write at position `|log|` plus the number of writable LEDs
   * before it; a writable LED's write carries its type's OFF value to its
   * access descriptor, and the LED ends OK iff it is writable and the
   * primitive accepted its write.
   */
  ghost predicate LedsOnboarded(subsysName: string, catalog: map<string, LedType>, descs: seq<DescLed>,
                                hw: Oracle, log: seq<Write>, r: Published) {
    && |r.leds| == |descs|
    && forall k :: 0 <= k < |descs| ==>
         && (Writable(catalog, descs[k]) ==>
               && |log| + CountWritable(catalog, descs[..k]) < |r.log|
               && r.log[|log| + CountWritable(catalog, descs[..k])] ==
                    Write(subsysName, descs[k].access, ValueFor(catalog[descs[k].typeName].settings, Off)))
         && (r.leds[k].status == Ok <==>
               && Writable(catalog, descs[k])
               && |log| + CountWritable(catalog, descs[..k]) < |r.log|
               && hw(r.log[..|log| + CountWritable(catalog, descs[..k])],
                     r.log[|log| + CountWritable(catalog, descs[..k])]) == 0)
  }

  /** One step of the LED loop's accounting: the first LED, then the rest. */
  lemma LedsOnboardedStep(subsysName: string, catalog: map<string, LedType>, descs: seq<DescLed>,
                          hw: Oracle, log: seq<Write>, log1: seq<Write>, led1: Led, ref1: nat, rest: Published)
    requires |descs| > 0
    requires |log1| == |log| + (if Writable(catalog, descs[0]) then 1 else 0) && log <= log1
    requires Writable(catalog, descs[0]) ==>
      log1[|log|] == Write(subsysName, descs[0].access, ValueFor(catalog[descs[0].typeName].settings, Off))
    requires led1.status == Ok <==> |log1| == |log| + 1 && hw(log, log1[|log|]) == 0
    requires log1 <= rest.log
    requires LedsOnboarded(subsysName, catalog, descs[1..], hw, log1, rest)
    ensures LedsOnboarded(subsysName, catalog, descs, hw, log,
                          Published([led1] + rest.leds, rest.rows, [ref1] + rest.refs, rest.log))
  {
    var r := Published([led1] + rest.leds, rest.rows, [ref1] + rest.refs, rest.log);
    forall k | 0 <= k < |descs|
      ensures Writable(catalog, descs[k]) ==>
               && |log| + CountWritable(catalog, descs[..k]) < |r.log|
               && r.log[|log| + CountWritable(catalog, descs[..k])] ==
                    Write(subsysName, descs[k].access, ValueFor(catalog[descs[k].typeName].settings, Off))
      ensures r.leds[k].status == Ok <==>
               && Writable(catalog, descs[k])
               && |log| + CountWritable(catalog, descs[..k]) < |r.log|
               && hw(r.log[..|log| + CountWritable(catalog, descs[..k])],
                     r.log[|log| + CountWritable(catalog, descs[..k])]) == 0
    {
      if k == 0 {
        assert descs[..0] == [];
        assert r.log[..|log1|] == log1;
        if |log1| == |log| + 1 {
          assert r.log[|log|] == log1[|log|];
          assert r.log[..|log|] == log;
        }
      } else {
        assert descs[..k][1..] == descs[1..][..k - 1];
        assert descs[..k][0] == descs[0];
        assert descs[1..][k - 1] == descs[k] && r.leds[k] == rest.leds[k - 1];
      }
    }
  }

  /**
   * Each published LED's write carries its OFF value to its access
   * descriptor, and each LED ends OK iff its own write was accepted.
   */
  lemma {:induction false} PublishedStatuses(subsysName: string, catalog: map<string, LedType>, descs: seq<DescLed>,
                                             rows: seq<LedRow>, hw: Oracle, log: seq<Write>)
    ensures LedsOnboarded(subsysName, catalog, descs, hw, log, PublishLeds(subsysName, catalog, descs, rows, hw, log))
    decreases |descs|
  {
    if |descs| > 0 {
      var s := OnboardLed(subsysName, catalog, descs[0], rows, hw, log);
      var rest := PublishLeds(subsysName, catalog, descs[1..], s.rows, hw, s.log);
      PublishedStatuses(subsysName, catalog, descs[1..], s.rows, hw, s.log);
      LedsOnboardedStep(subsysName, catalog, descs, hw, log, s.log, s.led, s.ref, rest);
    }
  }

  /** Distinct descriptor LED names give distinct display names. */
  lemma LedNameInjective(subsysName: string, a: string, b: string)
    requires a != b
    ensures LedName(subsysName, a) != LedName(subsysName, b)
  {
  }

  /** The LED loop leaves alone every existing row that no onboarded LED names. */
  lemma {:induction false} PublishKeepsOtherRows(subsysName: string, catalog: map<string, LedType>, descs: seq<DescLed>,
                                                 rows: seq<LedRow>, hw: Oracle, log: seq<Write>, i: nat)
    requires i < |rows|
    requires forall j :: 0 <= j < |descs| ==> rows[i].id != LedName(subsysName, descs[j].name)
    ensures var r := PublishLeds(subsysName, catalog, descs, rows, hw, log); i < |r.rows| && r.rows[i] == rows[i]
    decreases |descs|
  {
    if |descs| > 0 {
      var s := OnboardLed(subsysName, catalog, descs[0], rows, hw, log);
      assert rows[i].id != LedName(subsysName, descs[0].name);
      assert s.rows[i] == rows[i];
      forall j | 0 <= j < |descs[1..]| ensures s.rows[i].id != LedName(subsysName, descs[1..][j].name) {
        assert descs[1..][j] == descs[j + 1];
      }
      PublishKeepsOtherRows(subsysName, catalog, descs[1..], s.rows, hw, s.log, i);
    }
  }

  /** Every published LED's row holds the LED's status. */
  ghost predicate RowsHoldStatus(p: Published) {
    && |p.refs| == |p.leds|
    && forall k :: 0 <= k < |p.refs| ==>
         p.refs[k] < |p.rows| && p.rows[p.refs[k]].status == Some(StatusToString(p.leds[k].status.Code()))
  }

  /** One step of the row-status accounting: the first LED's row survives the rest. */
  lemma RowsHoldStatusStep(s: LedStep, rest: Published)
    requires s.ref < |s.rows| && s.rows[s.ref].status == Some(StatusToString(s.led.status.Code()))
    requires s.ref < |rest.rows| && rest.rows[s.ref] == s.rows[s.ref]
    requires RowsHoldStatus(rest)
    ensures RowsHoldStatus(Published([s.led] + rest.leds, rest.rows, [s.ref] + rest.refs, rest.log))
  {
    var r := Published([s.led] + rest.leds, rest.rows, [s.ref] + rest.refs, rest.log);
    forall k | 0 <= k < |r.refs|
      ensures r.refs[k] < |r.rows| && r.rows[r.refs[k]].status == Some(StatusToString(r.leds[k].status.Code()))
    {
      if k > 0 {
        assert r.refs[k] == rest.refs[k - 1] && r.leds[k] == rest.leds[k - 1];
      }
    }
  }

  /**
   * When the descriptor names its LEDs distinctly, the row of every
   * published LED ends holding that LED's status.
   */
  lemma {:induction false} PublishedRowStatuses(subsysName: string, catalog: map<string, LedType>, descs: seq<DescLed>,
                                                rows: seq<LedRow>, hw: Oracle, log: seq<Write>)
    requires forall i, j :: 0 <= i < j < |descs| ==> descs[i].name != descs[j].name
    ensures RowsHoldStatus(PublishLeds(subsysName, catalog, descs, rows, hw, log))
    decreases |descs|
  {
    if |descs| > 0 {
      var s := OnboardLed(subsysName, catalog, descs[0], rows, hw, log);
      var tail := descs[1..];
      assert forall i, j :: 0 <= i < j < |tail| ==> tail[i].name != tail[j].name by {
        forall i, j | 0 <= i < j < |tail| ensures tail[i].name != tail[j].name {
          assert tail[i] == descs[i + 1] && tail[j] == descs[j + 1];
        }
      }
      PublishedRowStatuses(subsysName, catalog, tail, s.rows, hw, s.log);
      forall j | 0 <= j < |tail| ensures s.rows[s.ref].id != LedName(subsysName, tail[j].name) {
        assert tail[j] == descs[j + 1];
        LedNameInjective(subsysName, descs[0].name, descs[j + 1].name);
      }
      PublishKeepsOtherRows(subsysName, catalog, tail, s.rows, hw, s.log, s.ref);
      RowsHoldStatusStep(s, PublishLeds(subsysName, catalog, tail, s.rows, hw, s.log));
    }
  }

  /**
   * Onboards the subsystem of row `idx` from its descriptor `d`, once the
   * directory is known to be set.
   */
  function OnboardFrom(db: Database, idx: nat, d: Descriptor, hw: Oracle, log: seq<Write>): (r: Onboarded)
    requires idx < |db.subsystems|
  {
    var row := db.subsystems[idx];
    var initial := NewSubsystem(row.name);
    if !d.loaded || !d.devicesParsed || !d.ledsParsed || d.info.None? then
      Onboarded(initial, db, log, false)
    else
      var counted := initial.(numTypes := |d.types|, numLeds := |d.leds|);
      if |d.leds| <= 0 || |d.types| <= 0 then
        Onboarded(counted, db, log, false)
      else
        var catalog := BuildCatalog(d.types);
        var p := PublishLeds(row.name, catalog, d.leds, db.leds, hw, log);
        var db' := db.(leds := p.rows, subsystems := db.subsystems[idx := row.(leds := p.refs)]);
        var subsys := counted.(types := catalog, leds := p.leds, marked := true, status := SubsysOk);
        Onboarded(subsys, db', p.log, true)
  }

  /**
   * Onboards the subsystem of row `idx` (add_subsystem). On every early
   * return the subsystem stays unmarked and IGNORE with no LEDs and nothing
   * is written or staged; on success it is marked and OK, owns one LED per
   * parsed descriptor LED, and the row's LED list names their rows.
   */
  function AddSubsystem(db: Database, idx: nat, provider: Provider, hw: Oracle, log: seq<Write>): (r: Onboarded)
    requires idx < |db.subsystems|
    ensures var row := db.subsystems[idx];
      && r.subsys.name == row.name
      && (r.subsys.status == SubsysOk <==> OnboardSucceeds(row, provider))
      && (r.subsys.marked <==> OnboardSucceeds(row, provider))
      && r.dirty == OnboardSucceeds(row, provider)
      && CatalogWf(r.subsys.types)
    ensures !OnboardSucceeds(db.subsystems[idx], provider) ==>
      && r.subsys.leds == [] && r.subsys.types == map[]
      && r.db == db && r.log == log
    ensures |r.db.subsystems| == |db.subsystems|
    ensures forall i :: 0 <= i < |db.subsystems| ==>
      r.db.subsystems[i] == db.subsystems[i].(leds := r.db.subsystems[i].leds)
    ensures forall i :: 0 <= i < |db.subsystems| && i != idx ==> r.db.subsystems[i] == db.subsystems[i]
    ensures r.db.daemons == db.daemons && r.db.seqno == db.seqno
    ensures ExtendsKeys(db.leds, r.db.leds)
    ensures log <= r.log
  {
    var row := db.subsystems[idx];
    match row.hwDescDir
    case None => Onboarded(NewSubsystem(row.name), db, log, false)
    case Some(dir) =>
      if dir == "" then Onboarded(NewSubsystem(row.name), db, log, false)
      else OnboardFrom(db, idx, provider(row.name, dir), hw, log)
  }

  /**
   * A successful onboarding records the parsed counts, owns one LED per
   * parsed descriptor LED (named after the subsystem and the descriptor
   * LED, starting OFF), catalogues every recognised parsed type, publishes
   * one row reference per LED, and writes once per writable LED.
   */
  lemma OnboardedShape(db: Database, idx: nat, provider: Provider, hw: Oracle, log: seq<Write>)
    requires idx < |db.subsystems|
    requires OnboardSucceeds(db.subsystems[idx], provider)
    ensures var r := AddSubsystem(db, idx, provider, hw, log);
      var row := db.subsystems[idx];
      var d := provider(row.name, row.hwDescDir.value);
      && r.subsys.numLeds == |d.leds| && r.subsys.numTypes == |d.types|
      && |r.subsys.leds| == |d.leds|
      && (forall k :: 0 <= k < |d.leds| ==>
            r.subsys.leds[k].name == LedName(row.name, d.leds[k].name) && r.subsys.leds[k].state == Off)
      && (forall i :: 0 <= i < |d.types| && d.types[i].Some? && IsRecognisedType(d.types[i].value.typeName) ==>
            d.types[i].value.typeName in r.subsys.types)
      && |r.db.subsystems[idx].leds| == |d.leds|
      && (forall k :: 0 <= k < |d.leds| ==>
            r.db.subsystems[idx].leds[k] < |r.db.leds| &&
            r.db.leds[r.db.subsystems[idx].leds[k]].id == r.subsys.leds[k].name)
      && |r.log| == |log| + CountWritable(r.subsys.types, d.leds)
  {
    var row := db.subsystems[idx];
    var d := provider(row.name, row.hwDescDir.value);
    var catalog := BuildCatalog(d.types);
    PublishedLeds(row.name, catalog, d.leds, db.leds, hw, log);
    PublishedRefs(row.name, catalog, d.leds, db.leds, hw, log);
    PublishedWrites(row.name, catalog, d.leds, db.leds, hw, log);
  }

  /**
   * Onboarding one LED keeps LED row ids unique: a row is appended only
   * when no row carries the LED's name.
   */
  lemma OnboardLedKeepsUniqueIds(subsysName: string, catalog: map<string, LedType>, d: DescLed,
                                 rows: seq<LedRow>, hw: Oracle, log: seq<Write>)
    ensures UniqueIds(rows) ==> UniqueIds(OnboardLed(subsysName, catalog, d, rows, hw, log).rows)
  {
    var r := OnboardLed(subsysName, catalog, d, rows, hw, log);
    if UniqueIds(rows) {
      forall i, j | 0 <= i < j < |r.rows| ensures r.rows[i].id != r.rows[j].id {
        if j >= |rows| {
          assert r.ref == |rows| && j == |rows|;
        }
      }
    }
  }

  /** Onboarding a subsystem keeps LED row ids unique. */
  lemma AddSubsystemKeepsUniqueIds(db: Database, idx: nat, provider: Provider, hw: Oracle, log: seq<Write>)
    requires idx < |db.subsystems| && UniqueIds(db.leds)
    ensures UniqueIds(AddSubsystem(db, idx, provider, hw, log).db.leds)
  {
    var row := db.subsystems[idx];
    if OnboardSucceeds(row, provider) {
      var d := provider(row.name, row.hwDescDir.value);
      var p := PublishLeds(row.name, BuildCatalog(d.types), d.leds, db.leds, hw, log);
      assert UniqueIds(p.rows);
    }
  }

  /**
   * The declared counts of the LED information only affect logging: the
   * outcome is the same whatever counts it declares.
   */
  lemma DeclaredCountsIgnored(db: Database, idx: nat, d: Descriptor, i1: LedInfo, i2: LedInfo,
                              hw: Oracle, log: seq<Write>)
    requires idx < |db.subsystems|
    ensures OnboardFrom(db, idx, d.(info := Some(i1)), hw, log) == OnboardFrom(db, idx, d.(info := Some(i2)), hw, log)
  {
  }
}

=== FILE: registry.dfy ===
/**
 * The subsystem registry's mark-and-sweep lifecycle (src/ledd.c): every
 * cycle clears every subsystem's mark, the update and onboarding paths set
 * it again, and the sweep deletes the subsystems left unmarked.
 */
module Registry {
  import opened LedModel

  /** The registry: subsystem records by subsystem name. */
  type Reg = map<string, Subsystem>

  /** Clears the mark of every subsystem (ledd_unmark_subsystems). */
  function Unmark(reg: Reg): (r: Reg)
    ensures r.Keys == reg.Keys
    ensures forall k :: k in r ==> !r[k].marked && r[k] == reg[k].(marked := false)
  {
    map k | k in reg :: reg[k].(marked := false)
  }

  /**
   * Deletes every unmarked subsystem, with its LEDs and types
   * (ledd_remove_unmarked_subsystems).
   */
  function Sweep(reg: Reg): (r: Reg)
    ensures forall k :: k in r <==> k in reg && reg[k].marked
    ensures forall k :: k in r ==> r[k] == reg[k]
  {
    map k | k in reg && reg[k].marked :: reg[k]
  }

  /** Sweeping right after unmarking empties the registry. */
  lemma SweepAfterUnmarkEmpties(reg: Reg)
    ensures Sweep(Unmark(reg)) == map[]
  {
    assert Sweep(Unmark(reg)).Keys == {};
  }

  /** A swept registry holds only marked subsystems, so sweeping it again changes nothing. */
  lemma SweepIdempotent(reg: Reg)
    ensures Sweep(Sweep(reg)) == Sweep(reg)
  {
  }
}

=== FILE: store.dfy ===
/**
 * An abstraction of the configuration database as the daemon sees it
 * through its IDL replica: the Subsystem, LED and Daemon tables and the
 * change sequence number. Rows are never deleted by the daemon, so a row is
 * referred to by its position in its table.
 */
module Store {
  import opened Wrappers

  /** A row of the LED table; NULL string columns are None. */
  datatype LedRow = LedRow(id: string, state: Option<string>, status: Option<string>)

  /** A row of the Subsystem table; `leds` refers to LED rows by position. */
  datatype SubsysRow = SubsysRow(name: string, hwDescDir: Option<string>, leds: seq<nat>)

  /** A row of the Daemon table. */
  datatype DaemonRow = DaemonRow(name: string, curHw: int)

  /** The replica: its tables and the sequence number of its last change. */
  datatype Database = Database(
    subsystems: seq<SubsysRow>,
    leds: seq<LedRow>,
    daemons: seq<DaemonRow>,
    seqno: nat)

  /** The position of the first LED row whose id is `name`, if any (lookup_led). */
  function LookupLed(rows: seq<LedRow>, name: string): (r: Option<nat>)
    ensures r.Some? ==> r.value < |rows| && rows[r.value].id == name
    ensures r.Some? ==> forall j :: 0 <= j < r.value ==> rows[j].id != name
    ensures r.None? <==> forall j :: 0 <= j < |rows| ==> rows[j].id != name
  {
    if |rows| == 0 then None
    else if rows[0].id == name then Some(0)
    else
      match LookupLed(rows[1..], name)
      case None => None
      case Some(i) => Some(i + 1)
  }

  /** No two LED rows share an id (the id column is the table's key). */
  ghost predicate UniqueIds(rows: seq<LedRow>) {
    forall i, j :: 0 <= i < j < |rows| ==> rows[i].id != rows[j].id
  }

  /** No two Subsystem rows share a name. */
  ghost predicate UniqueNames(rows: seq<SubsysRow>) {
    forall i, j :: 0 <= i < j < |rows| ==> rows[i].name != rows[j].name
  }

  /** `after` has the same rows as `before` with the same ids and states; only statuses may differ. */
  ghost predicate SameKeys(before: seq<LedRow>, after: seq<LedRow>) {
    && |after| == |before|
    && forall i :: 0 <= i < |before| ==> after[i].id == before[i].id && after[i].state == before[i].state
  }

  /** `after` keeps every row of `before` (ids and states) and may append new rows. */
  ghost predicate ExtendsKeys(before: seq<LedRow>, after: seq<LedRow>) {
    && |before| <= |after|
    && forall i :: 0 <= i < |before| ==> after[i].id == before[i].id && after[i].state == before[i].state
  }

  /** The names of all subsystems the database reports. */
  ghost function ReportedNames(db: Database): set<string> {
    set i | 0 <= i < |db.subsystems| :: db.subsystems[i].name
  }

  /** `after` has the same Subsystem rows as `before`; only their LED lists may differ. */
  ghost predicate SameRowsButLeds(before: seq<SubsysRow>, after: seq<SubsysRow>) {
    && |after| == |before|
    && forall i :: 0 <= i < |before| ==> after[i] == before[i].(leds := after[i].leds)
  }
}

=== FILE: update.dfy ===
/**
 * The update path for an already-known subsystem
 * (process_changes_in_subsys in src/ledd.c): every LED of the subsystem is
 * compared with every LED row of the same id; a differing desired state is
 * cached, written to the hardware, and the resulting status is staged in
 * the row when it differs from the row's status.
 */
module Update {
  import opened Wrappers
  import opened LedModel
  import opened Conversions
  import opened Store
  import opened LedWrite

  /** The outcome of reconciling one LED with one row. */
  datatype RowStep = RowStep(led: Led, row: LedRow, log: seq<Write>, dirty: bool)

  /** The outcome of reconciling one LED with the whole LED table. */
  datatype LedSync = LedSync(led: Led, rows: seq<LedRow>, log: seq<Write>, dirty: bool)

  /** The outcome of reconciling a list of LEDs with the whole LED table. */
  datatype LedsSync = LedsSync(leds: seq<Led>, rows: seq<LedRow>, log: seq<Write>, dirty: bool)

  /** The outcome of the update path for one subsystem. */
  datatype Updated = Updated(subsys: Subsystem, rows: seq<LedRow>, log: seq<Write>, dirty: bool)

  /**
   * The status a write attempt earns: Ok iff exactly one write was issued
   * after `log` and the primitive accepted it, Fault otherwise.
   */
  ghost function WriteStatus(hw: Oracle, log: seq<Write>, after: seq<Write>): LedStatus {
    if |after| == |log| + 1 && hw(log, after[|log|]) == 0 then Ok else Fault
  }

  /** True iff the LED's cached state agrees with every row carrying its id. */
  ghost predicate Synced(led: Led, rows: seq<LedRow>) {
    forall i :: 0 <= i < |rows| && rows[i].id == led.name ==> StateToEnum(rows[i].state) == led.state
  }

  /** True iff every LED is synced with the rows. */
  ghost predicate AllSynced(leds: seq<Led>, rows: seq<LedRow>) {
    forall k :: 0 <= k < |leds| ==> Synced(leds[k], rows)
  }

  /** Only the cached state of `after` may differ from `before`. */
  ghost predicate SameLedButState(before: Led, after: Led) {
    after == before.(state := after.state)
  }

  /** Reconciles one LED with one LED row (the body of the inner loop). */
  function SyncRow(subsys: Subsystem, led: Led, row: LedRow, hw: Oracle, log: seq<Write>): (r: RowStep)
    ensures r.row.id == row.id && r.row.state == row.state
    ensures SameLedButState(led, r.led)
    ensures row.id != led.name || StateToEnum(row.state) == led.state ==>
      r == RowStep(led, row, log, false)
    ensures row.id == led.name ==> r.led.state == StateToEnum(row.state)
    ensures row.id == led.name && StateToEnum(row.state) != led.state ==>
      && (r.log == log || (|r.log| == |log| + 1 && r.log[..|log|] == log))
      && (|r.log| > |log| ==> Writable(subsys.types, led.desc) && r.log[|log|].subsys == subsys.name)
      && (r.dirty <==> StatusToEnum(row.status) != WriteStatus(hw, log, r.log))
      && (r.dirty ==> r.row == row.(status := Some(StatusToString(WriteStatus(hw, log, r.log).Code()))))
      && (!r.dirty ==> r.row == row)
    ensures row.id == led.name && StateToEnum(row.state) != led.state ==>
      && (Writable(subsys.types, led.desc) <==> |r.log| == |log| + 1)
      && (Writable(subsys.types, led.desc) ==>
            r.log[|log|] == Write(subsys.name, led.desc.access,
                                  ValueFor(subsys.types[led.desc.typeName].settings, StateToEnum(row.state))))
  {
    if led.name != row.id then RowStep(led, row, log, false)
    else
      var desired := StateToEnum(row.state);
      if led.state == desired then RowStep(led, row, log, false)
      else
        var led1 := led.(state := desired);
        var outcome :=
          if GetLedType(subsys.types, led.desc.typeName).Some? then
            var w := WriteLed(subsys.name, subsys.types, led1, hw, log);
            (if w.ok then Ok else Fault, w.log)
          else (Fault, log);
        var status := outcome.0;
        if StatusToEnum(row.status) != status then
          RowStep(led1, row.(status := Some(StatusToString(status.Code()))), outcome.1, true)
        else
          RowStep(led1, row, outcome.1, false)
  }

  /** Reconciles one LED with every LED row in table order. */
  function SyncRows(subsys: Subsystem, led: Led, rows: seq<LedRow>, hw: Oracle, log: seq<Write>): (r: LedSync)
    ensures SameKeys(rows, r.rows)
    ensures SameLedButState(led, r.led)
    ensures log <= r.log
    ensures !r.dirty ==> r.rows == rows
    decreases |rows|
  {
    if |rows| == 0 then LedSync(led, rows, log, false)
    else
      var s := SyncRow(subsys, led, rows[0], hw, log);
      var rest := SyncRows(subsys, s.led, rows[1..], hw, s.log);
      LedSync(rest.led, [s.row] + rest.rows, rest.log, s.dirty || rest.dirty)
  }

  /** Reconciles each LED in turn with the LED rows (the outer loop). */
  function SyncLeds(subsys: Subsystem, leds: seq<Led>, rows: seq<LedRow>, hw: Oracle, log: seq<Write>): (r: LedsSync)
    ensures |r.leds| == |leds|
    ensures forall k :: 0 <= k < |leds| ==> SameLedButState(leds[k], r.leds[k])
    ensures SameKeys(rows, r.rows)
    ensures log <= r.log
    ensures !r.dirty ==> r.rows == rows
    decreases |leds|
  {
    if |leds| == 0 then LedsSync(leds, rows, log, false)
    else
      var s := SyncRows(subsys, leds[0], rows, hw, log);
      var rest := SyncLeds(subsys, leds[1..], s.rows, hw, s.log);
      LedsSync([s.led] + rest.leds, rest.rows, rest.log, s.dirty || rest.dirty)
  }

  /**
   * The update path for a known subsystem. An IGNORE subsystem is returned
   * untouched; otherwise its LEDs are reconciled and it is marked once at
   * least one LED has been visited.
   */
  function ProcessChanges(subsys: Subsystem, rows: seq<LedRow>, hw: Oracle, log: seq<Write>): (r: Updated)
    ensures subsys.status == SubsysIgnore ==> r == Updated(subsys, rows, log, false)
    ensures r.subsys == subsys.(leds := r.subsys.leds, marked := r.subsys.marked)
    ensures r.subsys.marked <==> subsys.marked || (subsys.status == SubsysOk && |subsys.leds| > 0)
    ensures |r.subsys.leds| == |subsys.leds|
    ensures forall k :: 0 <= k < |subsys.leds| ==> SameLedButState(subsys.leds[k], r.subsys.leds[k])
    ensures SameKeys(rows, r.rows)
    ensures log <= r.log
    ensures !r.dirty ==> r.rows == rows
  {
    match subsys.status
    case SubsysIgnore => Updated(subsys, rows, log, false)
    case SubsysOk =>
      var s := SyncLeds(subsys, subsys.leds, rows, hw, log);
      var marked := subsys.marked || |subsys.leds| > 0;
      Updated(subsys.(leds := s.leds, marked := marked), s.rows, s.log, s.dirty)
  }

  /** Whether a LED is synced depends only on the rows' ids and states. */
  lemma SyncedOnlyReadsKeys(led: Led, rows: seq<LedRow>, rows': seq<LedRow>)
    requires SameKeys(rows, rows')
    ensures Synced(led, rows) <==> Synced(led, rows')
  {
  }

  /** A synced LED causes no change: no write, no staged status, no dirty flag. */
  lemma {:induction false} SyncedRowsAreFixed(subsys: Subsystem, led: Led, rows: seq<LedRow>, hw: Oracle, log: seq<Write>)
    requires Synced(led, rows)
    ensures SyncRows(subsys, led, rows, hw, log) == LedSync(led, rows, log, false)
    decreases |rows|
  {
    if |rows| > 0 {
      assert Synced(led, rows[1..]) by {
        forall i | 0 <= i < |rows[1..]| && rows[1..][i].id == led.name
          ensures StateToEnum(rows[1..][i].state) == led.state
        {
          assert rows[1..][i] == rows[i + 1];
        }
      }
      SyncedRowsAreFixed(subsys, led, rows[1..], hw, log);
      assert [rows[0]] + rows[1..] == rows;
    }
  }

  /** With unique row ids, one pass leaves the LED synced with the rows. */
  lemma {:induction false} SyncRowsSyncs(subsys: Subsystem, led: Led, rows: seq<LedRow>, hw: Oracle, log: seq<Write>)
    requires UniqueIds(rows)
    ensures Synced(SyncRows(subsys, led, rows, hw, log).led, rows)
    decreases |rows|
  {
    if |rows| > 0 {
      var s := SyncRow(subsys, led, rows[0], hw, log);
      var rest := rows[1..];
      var final := SyncRows(subsys, s.led, rest, hw, s.log).led;
      assert UniqueIds(rest) by {
        forall i, j | 0 <= i < j < |rest| ensures rest[i].id != rest[j].id {
          assert rest[i] == rows[i + 1] && rest[j] == rows[j + 1];
        }
      }
      if rows[0].id == led.name {
        assert Synced(s.led, rest) by {
          forall i | 0 <= i < |rest| ensures rest[i].id != s.led.name {
            assert rest[i] == rows[i + 1];
          }
        }
        SyncedRowsAreFixed(subsys, s.led, rest, hw, s.log);
        assert final == s.led;
      } else {
        SyncRowsSyncs(subsys, s.led, rest, hw, s.log);
        assert s.led == led;
      }
      forall i | 0 <= i < |rows| && rows[i].id == final.name
        ensures StateToEnum(rows[i].state) == final.state
      {
        if i > 0 {
          assert rows[i] == rest[i - 1];
        }
      }
    }
  }

  /** With unique row ids, one pass leaves every LED synced with the rows. */
  lemma {:induction false} SyncLedsSyncs(subsys: Subsystem, leds: seq<Led>, rows: seq<LedRow>, hw: Oracle, log: seq<Write>)
    requires UniqueIds(rows)
    ensures var r := SyncLeds(subsys, leds, rows, hw, log); AllSynced(r.leds, r.rows)
    decreases |leds|
  {
    if |leds| > 0 {
      var s := SyncRows(subsys, leds[0], rows, hw, log);
      var rest := SyncLeds(subsys, leds[1..], s.rows, hw, s.log);
      var r := SyncLeds(subsys, leds, rows, hw, log);
      SyncRowsSyncs(subsys, leds[0], rows, hw, log);
      SyncedOnlyReadsKeys(s.led, rows, rest.rows);
      SyncLedsSyncs(subsys, leds[1..], s.rows, hw, s.log);
      forall k | 0 <= k < |r.leds| ensures Synced(r.leds[k], r.rows) {
        if k > 0 {
          assert r.leds[k] == rest.leds[k - 1];
        }
      }
    }
  }

  /** When every LED is synced, the outer loop changes nothing. */
  lemma {:induction false} AllSyncedAreFixed(subsys: Subsystem, leds: seq<Led>, rows: seq<LedRow>, hw: Oracle, log: seq<Write>)
    requires AllSynced(leds, rows)
    ensures SyncLeds(subsys, leds, rows, hw, log) == LedsSync(leds, rows, log, false)
    decreases |leds|
  {
    if |leds| > 0 {
      SyncedRowsAreFixed(subsys, leds[0], rows, hw, log);
      assert AllSynced(leds[1..], rows) by {
        forall k | 0 <= k < |leds[1..]| ensures Synced(leds[1..][k], rows) {
          assert leds[1..][k] == leds[k + 1];
        }
      }
      AllSyncedAreFixed(subsys, leds[1..], rows, hw, log);
      assert [leds[0]] + leds[1..] == leds;
    }
  }

  /**
   * Idempotence: running the update path a second time, with the LED table
   * as the first run left it, issues no register write, stages nothing and
   * leaves the subsystem as it is, whatever the hardware answers.
   */
  lemma ProcessChangesIdempotent(subsys: Subsystem, rows: seq<LedRow>, hw: Oracle, log: seq<Write>,
                                 hw2: Oracle, log2: seq<Write>)
    requires UniqueIds(rows)
    ensures var u := ProcessChanges(subsys, rows, hw, log);
            ProcessChanges(u.subsys, u.rows, hw2, log2) == Updated(u.subsys, u.rows, log2, false)
  {
    if subsys.status == SubsysOk {
      var u := ProcessChanges(subsys, rows, hw, log);
      SyncLedsSyncs(subsys, subsys.leds, rows, hw, log);
      AllSyncedAreFixed(u.subsys, u.subsys.leds, u.rows, hw2, log2);
    }
  }

  /**
   * True iff reconciling the LED issues a register write: a row of its id
   * asks for another state and its type resolves to a writable type.
   */
  ghost predicate NeedsWrite(subsys: Subsystem, led: Led, rows: seq<LedRow>) {
    !Synced(led, rows) && Writable(subsys.types, led.desc)
  }

  /**
   * What matching one LED against the table does: one write, of the
   * register value of the state the LED now caches, iff the LED needs it;
   * rows of other ids untouched; and the row of its id, when it asked for a
   * new state, left holding the status the write earned.
   */
  ghost predicate RowsWritten(subsys: Subsystem, led: Led, rows: seq<LedRow>, hw: Oracle, log: seq<Write>,
                              r: LedSync) {
    && |r.rows| == |rows|
    && |log| <= |r.log| && r.log[..|log|] == log
    && |r.log| == |log| + (if NeedsWrite(subsys, led, rows) then 1 else 0)
    && (NeedsWrite(subsys, led, rows) ==>
          r.log[|log|] == Write(subsys.name, led.desc.access,
                                ValueFor(subsys.types[led.desc.typeName].settings, r.led.state)))
    && (forall i :: 0 <= i < |rows| && rows[i].id != led.name ==> r.rows[i] == rows[i])
    && (!Synced(led, rows) ==>
          forall i :: 0 <= i < |rows| && rows[i].id == led.name ==>
            StatusToEnum(r.rows[i].status) == WriteStatus(hw, log, r.log))
  }

  /** The rows after the first keep unique ids. */
  lemma UniqueIdsTail(rows: seq<LedRow>)
    requires |rows| > 0 && UniqueIds(rows)
    ensures UniqueIds(rows[1..])
  {
    var rest := rows[1..];
    forall i, j | 0 <= i < j < |rest| ensures rest[i].id != rest[j].id {
      assert rest[i] == rows[i + 1] && rest[j] == rows[j + 1];
    }
  }

  /** The write accounting when the first row is the LED's and asks for another state. */
  lemma SyncRowsWritesHit(subsys: Subsystem, led: Led, rows: seq<LedRow>, hw: Oracle, log: seq<Write>)
    requires |rows| > 0 && UniqueIds(rows)
    requires rows[0].id == led.name && StateToEnum(rows[0].state) != led.state
    ensures RowsWritten(subsys, led, rows, hw, log, SyncRows(subsys, led, rows, hw, log))
  {
    var s := SyncRow(subsys, led, rows[0], hw, log);
    var rest := rows[1..];
    var r := SyncRows(subsys, led, rows, hw, log);
    assert !Synced(led, rows);
    assert Synced(s.led, rest) by {
      forall i | 0 <= i < |rest| ensures rest[i].id != s.led.name {
        assert rest[i] == rows[i + 1];
      }
    }
    SyncedRowsAreFixed(subsys, s.led, rest, hw, s.log);
    assert r == LedSync(s.led, [s.row] + rest, s.log, s.dirty);
    StatusRoundTrip(WriteStatus(hw, log, s.log));
    forall i | 0 <= i < |rows| && rows[i].id == led.name
      ensures StatusToEnum(r.rows[i].status) == WriteStatus(hw, log, r.log)
    {
      if i > 0 {
        assert false;
      }
    }
  }

  /**
   * The write accounting when the first row is another LED's or already
   * agrees: the rest of the table decides.
   */
  lemma SyncRowsWritesMiss(subsys: Subsystem, led: Led, rows: seq<LedRow>, hw: Oracle, log: seq<Write>)
    requires |rows| > 0
    requires rows[0].id != led.name || StateToEnum(rows[0].state) == led.state
    requires UniqueIds(rows)
    requires RowsWritten(subsys, led, rows[1..], hw, log, SyncRows(subsys, led, rows[1..], hw, log))
    ensures RowsWritten(subsys, led, rows, hw, log, SyncRows(subsys, led, rows, hw, log))
  {
    var rest := rows[1..];
    var r := SyncRows(subsys, led, rows, hw, log);
    var t := SyncRows(subsys, led, rest, hw, log);
    assert SyncRow(subsys, led, rows[0], hw, log) == RowStep(led, rows[0], log, false);
    assert r == LedSync(t.led, [rows[0]] + t.rows, t.log, t.dirty);
    assert Synced(led, rows) <==> Synced(led, rest) by {
      if Synced(led, rest) {
        forall i | 0 <= i < |rows| && rows[i].id == led.name
          ensures StateToEnum(rows[i].state) == led.state
        {
          if i > 0 {
            assert rows[i] == rest[i - 1];
          }
        }
      }
      if Synced(led, rows) {
        forall i | 0 <= i < |rest| && rest[i].id == led.name
          ensures StateToEnum(rest[i].state) == led.state
        {
          assert rest[i] == rows[i + 1];
        }
      }
    }
    forall i | 0 <= i < |rows| && rows[i].id != led.name ensures r.rows[i] == rows[i] {
      if i > 0 {
        assert rows[i] == rest[i - 1];
      }
    }
    if !Synced(led, rows) {
      forall i | 0 <= i < |rows| && rows[i].id == led.name
        ensures StatusToEnum(r.rows[i].status) == WriteStatus(hw, log, r.log)
      {
        if i > 0 {
          assert rows[i] == rest[i - 1];
        } else {
          assert false;
        }
      }
    }
  }

  /**
   * With unique row ids, matching a LED against the table writes it once,
   * with its new state's value, exactly when a row asks for another state
   * and its type is writable, and stages the earned status in that row.
   */
  lemma {:induction false} SyncRowsWrites(subsys: Subsystem, led: Led, rows: seq<LedRow>, hw: Oracle, log: seq<Write>)
    requires UniqueIds(rows)
    ensures RowsWritten(subsys, led, rows, hw, log, SyncRows(subsys, led, rows, hw, log))
    decreases |rows|
  {
    if |rows| > 0 {
      if rows[0].id == led.name && StateToEnum(rows[0].state) != led.state {
        SyncRowsWritesHit(subsys, led, rows, hw, log);
      } else {
        UniqueIdsTail(rows);
        SyncRowsWrites(subsys, led, rows[1..], hw, log);
        SyncRowsWritesMiss(subsys, led, rows, hw, log);
      }
    }
  }

  /** The number of LEDs that need a register write against the rows. */
  ghost function PendingWrites(subsys: Subsystem, leds: seq<Led>, rows: seq<LedRow>): nat
    decreases |leds|
  {
    if |leds| == 0 then 0
    else (if NeedsWrite(subsys, leds[0], rows) then 1 else 0) + PendingWrites(subsys, leds[1..], rows)
  }

  /** Which LEDs need a write depends only on the rows' ids and states. */
  lemma {:induction false} PendingWritesOnlyReadsKeys(subsys: Subsystem, leds: seq<Led>, rows: seq<LedRow>, rows': seq<LedRow>)
    requires SameKeys(rows, rows')
    ensures PendingWrites(subsys, leds, rows) == PendingWrites(subsys, leds, rows')
    decreases |leds|
  {
    if |leds| > 0 {
      SyncedOnlyReadsKeys(leds[0], rows, rows');
      PendingWritesOnlyReadsKeys(subsys, leds[1..], rows, rows');
    }
  }

  /** Row statuses aside, unique ids survive any change that keeps the keys. */
  lemma UniqueIdsKept(rows: seq<LedRow>, rows': seq<LedRow>)
    requires SameKeys(rows, rows') && UniqueIds(rows)
    ensures UniqueIds(rows')
  {
    forall i, j | 0 <= i < j < |rows'| ensures rows'[i].id != rows'[j].id {
      assert rows'[i].id == rows[i].id && rows'[j].id == rows[j].id;
    }
  }

  /**
   * The writes of the outer loop: one per LED that needs one, in LED
   * order, each carrying the register value of the state that LED now
   * caches.
   */
  ghost predicate LedsWritten(subsys: Subsystem, leds: seq<Led>, rows: seq<LedRow>, log: seq<Write>, r: LedsSync) {
    && |r.leds| == |leds|
    && |r.log| == |log| + PendingWrites(subsys, leds, rows)
    && forall k :: 0 <= k < |leds| && NeedsWrite(subsys, leds[k], rows) ==>
         && |log| + PendingWrites(subsys, leds[..k], rows) < |r.log|
         && r.log[|log| + PendingWrites(subsys, leds[..k], rows)] ==
              Write(subsys.name, leds[k].desc.access,
                    ValueFor(subsys.types[leds[k].desc.typeName].settings, r.leds[k].state))
  }

  /**
   * The LED at position `k > 0` needs a write against `rows` iff it needs
   * one against `rows1`, and its write position counted from `log` equals
   * its position among the remaining LEDs counted from `log1`.
   */
  lemma PendingWritesShift(subsys: Subsystem, leds: seq<Led>, rows: seq<LedRow>, rows1: seq<LedRow>,
                           log: seq<Write>, log1: seq<Write>, k: nat)
    requires 0 < k < |leds| && SameKeys(rows, rows1)
    requires |log1| == |log| + (if NeedsWrite(subsys, leds[0], rows) then 1 else 0)
    ensures leds[1..][k - 1] == leds[k]
    ensures NeedsWrite(subsys, leds[k], rows) <==> NeedsWrite(subsys, leds[1..][k - 1], rows1)
    ensures |log| + PendingWrites(subsys, leds[..k], rows) == |log1| + PendingWrites(subsys, leds[1..][..k - 1], rows1)
  {
    assert leds[..k][1..] == leds[1..][..k - 1];
    assert leds[..k][0] == leds[0];
    PendingWritesOnlyReadsKeys(subsys, leds[1..][..k - 1], rows, rows1);
    SyncedOnlyReadsKeys(leds[k], rows, rows1);
  }

  /** The first LED's write sits right after `log`. */
  lemma WrittenHead(subsys: Subsystem, leds: seq<Led>, rows: seq<LedRow>, log: seq<Write>, log1: seq<Write>,
                    r: LedsSync)
    requires |leds| > 0 && |r.leds| > 0 && NeedsWrite(subsys, leds[0], rows)
    requires |log1| == |log| + 1 && log1 <= r.log
    requires log1[|log|] == Write(subsys.name, leds[0].desc.access,
                                  ValueFor(subsys.types[leds[0].desc.typeName].settings, r.leds[0].state))
    ensures |log| + PendingWrites(subsys, leds[..0], rows) < |r.log|
    ensures r.log[|log| + PendingWrites(subsys, leds[..0], rows)] ==
              Write(subsys.name, leds[0].desc.access,
                    ValueFor(subsys.types[leds[0].desc.typeName].settings, r.leds[0].state))
  {
    assert leds[..0] == [];
    assert r.log[|log|] == log1[|log|];
  }

  /** A later LED's write sits where the remaining LEDs' accounting puts it. */
  lemma WrittenTail(subsys: Subsystem, leds: seq<Led>, rows: seq<LedRow>, rows1: seq<LedRow>,
                    log: seq<Write>, log1: seq<Write>, rest: LedsSync, r: LedsSync, k: nat)
    requires 0 < k < |leds| && SameKeys(rows, rows1) && NeedsWrite(subsys, leds[k], rows)
    requires |log1| == |log| + (if NeedsWrite(subsys, leds[0], rows) then 1 else 0)
    requires LedsWritten(subsys, leds[1..], rows1, log1, rest)
    requires r.log == rest.log && |r.leds| == |leds| && r.leds[1..] == rest.leds
    ensures |log| + PendingWrites(subsys, leds[..k], rows) < |r.log|
    ensures r.log[|log| + PendingWrites(subsys, leds[..k], rows)] ==
              Write(subsys.name, leds[k].desc.access,
                    ValueFor(subsys.types[leds[k].desc.typeName].settings, r.leds[k].state))
  {
    PendingWritesShift(subsys, leds, rows, rows1, log, log1, k);
    assert r.leds[k] == rest.leds[k - 1];
  }

  /**
   * One step of the outer loop's write accounting: the first LED's write
   * (if any) followed by the writes of the remaining LEDs against rows with
   * the same keys.
   */
  lemma LedsWrittenStep(subsys: Subsystem, leds: seq<Led>, rows: seq<LedRow>, rows1: seq<LedRow>,
                        log: seq<Write>, log1: seq<Write>, led1: Led, rest: LedsSync, dirty: bool)
    requires |leds| > 0 && SameKeys(rows, rows1)
    requires |log1| == |log| + (if NeedsWrite(subsys, leds[0], rows) then 1 else 0)
    requires NeedsWrite(subsys, leds[0], rows) ==>
      log1[|log|] == Write(subsys.name, leds[0].desc.access,
                           ValueFor(subsys.types[leds[0].desc.typeName].settings, led1.state))
    requires log1 <= rest.log
    requires LedsWritten(subsys, leds[1..], rows1, log1, rest)
    ensures LedsWritten(subsys, leds, rows, log, LedsSync([led1] + rest.leds, rest.rows, rest.log, dirty))
  {
    var r := LedsSync([led1] + rest.leds, rest.rows, rest.log, dirty);
    assert r.leds[1..] == rest.leds;
    PendingWritesOnlyReadsKeys(subsys, leds[1..], rows, rows1);
    forall k | 0 <= k < |leds| && NeedsWrite(subsys, leds[k], rows)
      ensures |log| + PendingWrites(subsys, leds[..k], rows) < |r.log|
      ensures r.log[|log| + PendingWrites(subsys, leds[..k], rows)] ==
                Write(subsys.name, leds[k].desc.access,
                      ValueFor(subsys.types[leds[k].desc.typeName].settings, r.leds[k].state))
    {
      if k == 0 {
        WrittenHead(subsys, leds, rows, log, log1, r);
      } else {
        WrittenTail(subsys, leds, rows, rows1, log, log1, rest, r, k);
      }
    }
  }

  /**
   * With unique row ids, the outer loop writes each LED whose row asks for
   * another state and whose type is writable exactly once, in LED order,
   * with the value of its new state, and writes nothing else.
   */
  lemma {:induction false} SyncLedsWrites(subsys: Subsystem, leds: seq<Led>, rows: seq<LedRow>, hw: Oracle, log: seq<Write>)
    requires UniqueIds(rows)
    ensures LedsWritten(subsys, leds, rows, log, SyncLeds(subsys, leds, rows, hw, log))
    decreases |leds|
  {
    if |leds| > 0 {
      var s := SyncRows(subsys, leds[0], rows, hw, log);
      var rest := SyncLeds(subsys, leds[1..], s.rows, hw, s.log);
      SyncRowsWrites(subsys, leds[0], rows, hw, log);
      UniqueIdsKept(rows, s.rows);
      SyncLedsWrites(subsys, leds[1..], s.rows, hw, s.log);
      LedsWrittenStep(subsys, leds, rows, s.rows, log, s.log, s.led, rest, s.dirty || rest.dirty);
    }
  }

  /**
   * With unique row ids, after the update path of an OK subsystem every
   * LED caches the state its row asks for.
   */
  lemma ProcessChangesSyncs(subsys: Subsystem, rows: seq<LedRow>, hw: Oracle, log: seq<Write>)
    requires UniqueIds(rows) && subsys.status == SubsysOk
    ensures var u := ProcessChanges(subsys, rows, hw, log); AllSynced(u.subsys.leds, u.rows)
  {
    SyncLedsSyncs(subsys, subsys.leds, rows, hw, log);
  }

  /**
   * With unique row ids, the update path of an OK subsystem issues one
   * write per LED whose row asks for another state and whose type is
   * writable, in LED order, with the value of the new state.
   */
  lemma ProcessChangesWrites(subsys: Subsystem, rows: seq<LedRow>, hw: Oracle, log: seq<Write>)
    requires UniqueIds(rows) && subsys.status == SubsysOk
    ensures var u := ProcessChanges(subsys, rows, hw, log);
      LedsWritten(subsys, subsys.leds, rows, log, LedsSync(u.subsys.leds, u.rows, u.log, u.dirty))
  {
    SyncLedsWrites(subsys, subsys.leds, rows, hw, log);
  }

  /** No two LEDs of the list share a name. */
  ghost predicate DistinctNames(leds: seq<Led>) {
    forall j, k :: 0 <= j < k < |leds| ==> leds[j].name != leds[k].name
  }

  /** Some LED of the list is named `id`. */
  ghost predicate NamedBy(leds: seq<Led>, id: string) {
    exists j :: 0 <= j < |leds| && leds[j].name == id
  }

  /** The LEDs after the first keep distinct names. */
  lemma DistinctNamesTail(leds: seq<Led>)
    requires |leds| > 0 && DistinctNames(leds)
    ensures DistinctNames(leds[1..])
  {
    var rest := leds[1..];
    forall j, k | 0 <= j < k < |rest| ensures rest[j].name != rest[k].name {
      assert rest[j] == leds[j + 1] && rest[k] == leds[k + 1];
    }
  }

  /** Matching a LED against the table changes only the rows carrying its id. */
  lemma {:induction false} SyncRowsKeepsOthers(subsys: Subsystem, led: Led, rows: seq<LedRow>, hw: Oracle, log: seq<Write>)
    ensures var r := SyncRows(subsys, led, rows, hw, log);
      forall i :: 0 <= i < |rows| && rows[i].id != led.name ==> r.rows[i] == rows[i]
    decreases |rows|
  {
    if |rows| > 0 {
      var s := SyncRow(subsys, led, rows[0], hw, log);
      var rest := SyncRows(subsys, s.led, rows[1..], hw, s.log);
      SyncRowsKeepsOthers(subsys, s.led, rows[1..], hw, s.log);
      var r := SyncRows(subsys, led, rows, hw, log);
      forall i | 0 <= i < |rows| && rows[i].id != led.name ensures r.rows[i] == rows[i] {
        if i > 0 {
          assert r.rows[i] == rest.rows[i - 1] && rows[i] == rows[1..][i - 1];
        }
      }
    }
  }

  /** The outer loop changes only rows whose id some LED of the subsystem carries. */
  lemma {:induction false} SyncLedsKeepsOthers(subsys: Subsystem, leds: seq<Led>, rows: seq<LedRow>, hw: Oracle, log: seq<Write>)
    ensures var r := SyncLeds(subsys, leds, rows, hw, log);
      forall i :: 0 <= i < |rows| && !NamedBy(leds, rows[i].id) ==> r.rows[i] == rows[i]
    decreases |leds|
  {
    if |leds| > 0 {
      var s := SyncRows(subsys, leds[0], rows, hw, log);
      var rest := SyncLeds(subsys, leds[1..], s.rows, hw, s.log);
      SyncRowsKeepsOthers(subsys, leds[0], rows, hw, log);
      SyncLedsKeepsOthers(subsys, leds[1..], s.rows, hw, s.log);
      forall i | 0 <= i < |rows| && !NamedBy(leds, rows[i].id) ensures rest.rows[i] == rows[i] {
        assert leds[0].name != rows[i].id;
        forall j | 0 <= j < |leds[1..]| ensures leds[1..][j].name != s.rows[i].id {
          assert leds[1..][j] == leds[j + 1];
        }
      }
    }
  }

  /** One LED-row step raises the change flag iff it changes the row. */
  lemma SyncRowDirty(subsys: Subsystem, led: Led, row: LedRow, hw: Oracle, log: seq<Write>)
    ensures var s := SyncRow(subsys, led, row, hw, log); s.dirty <==> s.row != row
  {
    var s := SyncRow(subsys, led, row, hw, log);
    if row.id == led.name && StateToEnum(row.state) != led.state && s.dirty {
      StatusRoundTrip(WriteStatus(hw, log, s.log));
    }
  }

  /** Matching a LED against the table raises the change flag iff some row changed. */
  lemma {:induction false} SyncRowsDirty(subsys: Subsystem, led: Led, rows: seq<LedRow>, hw: Oracle, log: seq<Write>)
    ensures var r := SyncRows(subsys, led, rows, hw, log); r.dirty <==> r.rows != rows
    decreases |rows|
  {
    if |rows| > 0 {
      var s := SyncRow(subsys, led, rows[0], hw, log);
      var rest := SyncRows(subsys, s.led, rows[1..], hw, s.log);
      SyncRowDirty(subsys, led, rows[0], hw, log);
      SyncRowsDirty(subsys, s.led, rows[1..], hw, s.log);
      var r := SyncRows(subsys, led, rows, hw, log);
      assert rows == [rows[0]] + rows[1..];
      if r.rows == rows {
        assert s.row == r.rows[0] && rest.rows == r.rows[1..];
      }
    }
  }

  /**
   * With distinct LED names, the update path's outer loop raises the
   * change flag iff it changed the LED table: a row one LED changes is not
   * touched again by a later LED.
   */
  lemma {:induction false} SyncLedsDirty(subsys: Subsystem, leds: seq<Led>, rows: seq<LedRow>, hw: Oracle, log: seq<Write>)
    requires DistinctNames(leds)
    ensures var r := SyncLeds(subsys, leds, rows, hw, log); r.dirty <==> r.rows != rows
    decreases |leds|
  {
    if |leds| > 0 {
      var s := SyncRows(subsys, leds[0], rows, hw, log);
      var rest := SyncLeds(subsys, leds[1..], s.rows, hw, s.log);
      SyncRowsDirty(subsys, leds[0], rows, hw, log);
      DistinctNamesTail(leds);
      SyncLedsDirty(subsys, leds[1..], s.rows, hw, s.log);
      if s.dirty {
        SyncRowsKeepsOthers(subsys, leds[0], rows, hw, log);
        SyncLedsKeepsOthers(subsys, leds[1..], s.rows, hw, s.log);
        var i :| 0 <= i < |rows| && s.rows[i] != rows[i];
        forall j | 0 <= j < |leds[1..]| ensures leds[1..][j].name != s.rows[i].id {
          assert leds[1..][j] == leds[j + 1];
        }
        assert rest.rows[i] == s.rows[i];
      }
    }
  }

  /**
   * The status the `k`th LED earns in the outer loop: Ok iff it needs a
   * write and the primitive accepts that write, which is write number
   * `|log| + PendingWrites(subsys, leds[..k], rows)` of `after`, issued
   * after the writes before it; Fault otherwise.
   */
  ghost function EarnedStatus(subsys: Subsystem, leds: seq<Led>, rows: seq<LedRow>, hw: Oracle,
                              log: seq<Write>, after: seq<Write>, k: nat): LedStatus
    requires k < |leds|
  {
    var n := |log| + PendingWrites(subsys, leds[..k], rows);
    if NeedsWrite(subsys, leds[k], rows) && n < |after| && hw(after[..n], after[n]) == 0 then Ok else Fault
  }

  /**
   * The statuses the outer loop leaves: every row carrying the id of a LED
   * whose rows asked for another state holds the status that LED earned.
   */
  ghost predicate RowsStatused(subsys: Subsystem, leds: seq<Led>, rows: seq<LedRow>, hw: Oracle,
                               log: seq<Write>, r: LedsSync) {
    && |r.rows| == |rows|
    && forall k, i :: 0 <= k < |leds| && 0 <= i < |rows| && rows[i].id == leds[k].name && !Synced(leds[k], rows) ==>
         StatusToEnum(r.rows[i].status) == EarnedStatus(subsys, leds, rows, hw, log, r.log, k)
  }

  /** The first LED's rows keep the status its own write earned. */
  lemma StatusHead(subsys: Subsystem, leds: seq<Led>, rows: seq<LedRow>, hw: Oracle, log: seq<Write>,
                   s: LedSync, rest: LedsSync, i: nat)
    requires |leds| > 0 && DistinctNames(leds)
    requires i < |rows| && rows[i].id == leds[0].name && !Synced(leds[0], rows)
    requires RowsWritten(subsys, leds[0], rows, hw, log, s) && SameKeys(rows, s.rows)
    requires s.log <= rest.log && |rest.rows| == |s.rows|
    requires forall j :: 0 <= j < |s.rows| && !NamedBy(leds[1..], s.rows[j].id) ==> rest.rows[j] == s.rows[j]
    ensures StatusToEnum(rest.rows[i].status) == EarnedStatus(subsys, leds, rows, hw, log, rest.log, 0)
  {
    forall j | 0 <= j < |leds[1..]| ensures leds[1..][j].name != s.rows[i].id {
      assert leds[1..][j] == leds[j + 1];
    }
    assert rest.rows[i] == s.rows[i];
    assert leds[..0] == [];
    if NeedsWrite(subsys, leds[0], rows) {
      assert rest.log[..|log|] == log;
      assert rest.log[|log|] == s.log[|log|];
    }
  }

  /** A later LED's rows hold the status the remaining LEDs' accounting gives it. */
  lemma StatusTail(subsys: Subsystem, leds: seq<Led>, rows: seq<LedRow>, rows1: seq<LedRow>, hw: Oracle,
                   log: seq<Write>, log1: seq<Write>, rest: LedsSync, i: nat, k: nat)
    requires 0 < k < |leds| && SameKeys(rows, rows1)
    requires i < |rows| && rows[i].id == leds[k].name && !Synced(leds[k], rows)
    requires |log1| == |log| + (if NeedsWrite(subsys, leds[0], rows) then 1 else 0)
    requires RowsStatused(subsys, leds[1..], rows1, hw, log1, rest)
    ensures StatusToEnum(rest.rows[i].status) == EarnedStatus(subsys, leds, rows, hw, log, rest.log, k)
  {
    PendingWritesShift(subsys, leds, rows, rows1, log, log1, k);
    SyncedOnlyReadsKeys(leds[k], rows, rows1);
    assert rows1[i].id == leds[1..][k - 1].name;
  }

  /** One step of the outer loop's status accounting. */
  lemma RowsStatusedStep(subsys: Subsystem, leds: seq<Led>, rows: seq<LedRow>, hw: Oracle, log: seq<Write>,
                         s: LedSync, rest: LedsSync, led1: Led, dirty: bool)
    requires |leds| > 0 && DistinctNames(leds)
    requires RowsWritten(subsys, leds[0], rows, hw, log, s) && SameKeys(rows, s.rows)
    requires s.log <= rest.log && |rest.rows| == |s.rows|
    requires forall j :: 0 <= j < |s.rows| && !NamedBy(leds[1..], s.rows[j].id) ==> rest.rows[j] == s.rows[j]
    requires RowsStatused(subsys, leds[1..], s.rows, hw, s.log, rest)
    ensures RowsStatused(subsys, leds, rows, hw, log, LedsSync([led1] + rest.leds, rest.rows, rest.log, dirty))
  {
    forall k, i | 0 <= k < |leds| && 0 <= i < |rows| && rows[i].id == leds[k].name && !Synced(leds[k], rows)
      ensures StatusToEnum(rest.rows[i].status) == EarnedStatus(subsys, leds, rows, hw, log, rest.log, k)
    {
      if k == 0 {
        StatusHead(subsys, leds, rows, hw, log, s, rest, i);
      } else {
        StatusTail(subsys, leds, rows, s.rows, hw, log, s.log, rest, i, k);
      }
    }
  }

  /**
   * With unique row ids and distinct LED names, the outer loop leaves every
   * row of a LED whose rows asked for another state holding the status
   * that LED earned: Ok iff its type is writable and its write returned 0.
   */
  lemma {:induction false} SyncLedsStatuses(subsys: Subsystem, leds: seq<Led>, rows: seq<LedRow>, hw: Oracle, log: seq<Write>)
    requires UniqueIds(rows) && DistinctNames(leds)
    ensures RowsStatused(subsys, leds, rows, hw, log, SyncLeds(subsys, leds, rows, hw, log))
    decreases |leds|
  {
    if |leds| > 0 {
      var s := SyncRows(subsys, leds[0], rows, hw, log);
      var rest := SyncLeds(subsys, leds[1..], s.rows, hw, s.log);
      SyncRowsWrites(subsys, leds[0], rows, hw, log);
      UniqueIdsKept(rows, s.rows);
      DistinctNamesTail(leds);
      SyncLedsStatuses(subsys, leds[1..], s.rows, hw, s.log);
      SyncLedsKeepsOthers(subsys, leds[1..], s.rows, hw, s.log);
      RowsStatusedStep(subsys, leds, rows, hw, log, s, rest, s.led, s.dirty || rest.dirty);
    }
  }

  /**
   * With unique row ids and distinct LED names, the update path of an OK
   * subsystem leaves each changed LED's row holding the status the LED
   * earned, and leaves every row no LED of the subsystem names untouched.
   */
  lemma ProcessChangesStatuses(subsys: Subsystem, rows: seq<LedRow>, hw: Oracle, log: seq<Write>)
    requires UniqueIds(rows) && DistinctNames(subsys.leds) && subsys.status == SubsysOk
    ensures var u := ProcessChanges(subsys, rows, hw, log);
      RowsStatused(subsys, subsys.leds, rows, hw, log, LedsSync(u.subsys.leds, u.rows, u.log, u.dirty))
    ensures var u := ProcessChanges(subsys, rows, hw, log);
      forall i :: 0 <= i < |rows| && !NamedBy(subsys.leds, rows[i].id) ==> u.rows[i] == rows[i]
  {
    SyncLedsStatuses(subsys, subsys.leds, rows, hw, log);
    SyncLedsKeepsOthers(subsys, subsys.leds, rows, hw, log);
  }

  /**
   * With distinct LED names, the update path stages a change iff it
   * changed the LED table.
   */
  lemma ProcessChangesDirty(subsys: Subsystem, rows: seq<LedRow>, hw: Oracle, log: seq<Write>)
    requires DistinctNames(subsys.leds)
    ensures var u := ProcessChanges(subsys, rows, hw, log); u.dirty <==> u.rows != rows
  {
    if subsys.status == SubsysOk {
      SyncLedsDirty(subsys, subsys.leds, rows, hw, log);
    }
  }
}

=== FILE: wrappers.dfy ===
/** Optional values, standing in for the C code's nullable pointers. */
module Wrappers {

  datatype Option<+T> = None | Some(value: T)
}
